=== FILE: README.md ===
# Triangulator service — a Dafny model

The triangulation service stores point sets and returns fan triangulations
of them over HTTP. Point sets and triangulations travel in a fixed
little-endian binary layout:

- A point set is a u32 count N followed by N records of two binary32
  values, x then y.
- A triangulation is a point set, then a u32 count T, then T records of
  three u32 vertex indices.

`triangulate` validates its argument in a fixed order and stops at the
first problem:

1. the argument is a list;
2. the list is not empty;
3. it has at least 3 points;
4. point by point: the shape of the point, then numeric coordinates, then
   no NaN, then no infinity;
5. no two points closer than 1e-10 on both axes.

Collinear input yields no triangle. Three points yield the single triangle
(0, 1, 2). Otherwise the result is the fan around the point with the
smallest (x, y), over the indices stably sorted by (x, y).

The model covers:

- the codec;
- the validation chain;
- the collinearity test;
- the fan;
- the point-set manager;
- the decision logic of the three routes, in both the current service and
  the earlier one. The earlier service uses a stub `triangulate` that
  always returns no triangle.

Modules, one per file:

- `Outcomes` holds `Result` and the Python exception classes the handlers
  tell apart.
- `Values` holds the Python values `triangulate` receives, plus points and
  triangles.
- `LittleEndian` holds u32 words and their 4-byte encoding.
- `Float32` maps a binary32 bit pattern to the number it denotes: finite,
  NaN or ±infinity. A finite word denotes its significand times
  2^(e - 150), the IEEE 754 binary32 value.
- `BinaryFormat` is `binary_format.py`.
- `Geometry` holds the tolerance, the cross product and `_are_collinear`.
- `Validation` holds the checks shared by both `triangulate` functions.
- `Triangulator` is `Triangulator/triangulator.py`.
- `StubTriangulator` is `triangulator.py`.
- `PointSetManager` is the manager class.
- `Service` is `Triangulator/app.py`.
- `LegacyService` is `app.py`.

Codec coordinates are the 32-bit words of their binary32 encoding, so
encoding and decoding only move bits and the round trips are exact. Bytes
and words are integers restricted to 0..255 and 0..2^32-1. A count that
does not fit a u32 makes `struct.pack('<L', …)` raise `struct.error`; the
model reports this as `CountOverflow`.

Each route is a pure function of the request and of what it reads:
- The current service's two GET routes take the point-set manager's
  answer as an `Outcome`: a returned value or a raised exception, because
  the manager can be replaced by one that raises `ConnectionError` or
  `TimeoutError`. `GET /triangulation/{id}` also takes the triangulation
  function it calls.
- Its `POST /pointset` takes the manager's storage map and the identifier
  the manager would draw for the new entry, and returns the new map.
- All three routes of the earlier service take its module-level
  dictionary itself; its `POST` also takes the fresh identifier.

## Model

| member | source | states |
|---|---|---|
| LittleEndian.ReadU32OfU32Bytes | TP/Triangulator/binary_format.py:64 | reading back the 4 little-endian bytes written for a u32 gives the same u32 |
| LittleEndian.U32BytesOfRead | TP/Triangulator/binary_format.py:97-99 | writing the u32 read from 4 bytes reproduces exactly those 4 bytes |
| Float32.ToNum | TP/Triangulator/binary_format.py:108-110 | a binary32 word is finite exactly when its exponent field is not all ones; it is NaN exactly when it is not finite and its fraction is nonzero; it is zero exactly when exponent and fraction are zero; a nonzero value is negative exactly when the sign bit is set |
| Float32.KnownWords | TP/Triangulator/binary_format.py:108-108 | `struct.unpack('<f')` reads 0x00000000 as 0.0, 0x3F800000 as 1.0, 0x3F000000 as 0.5 and 0xBF800000 as -1.0 |
| Float32.ToNumIsMonotone | TP/Triangulator/binary_format.py:108-108 | among finite words with the same sign bit, a larger word is a larger number when the sign bit is clear and a smaller one when it is set |
| Float32.SignBitNegates | TP/Triangulator/binary_format.py:108-108 | setting the sign bit keeps a word finite or not, and negates a finite value |
| BinaryFormat.ExceptionOf | TP/Triangulator/binary_format.py:96-159 | only a count that does not fit a u32 raises `struct.error`; every other codec failure is a `ValueError` |
| BinaryFormat.ToPointsValue | TP/Triangulator/binary_format.py:105-115 | the decoded list has one `(x, y)` pair per point, and a pair is a pair of finite floats exactly when the point's two words are finite |
| BinaryFormat.PointRecords | TP/Triangulator/binary_format.py:65-66 | the records of the points are 8 bytes each, and the record at offset 8i holds point i's x then y words |
| BinaryFormat.EncodePointSet | TP/Triangulator/binary_format.py:64-67 | fails exactly when the point count does not fit a u32, with `struct.error`; otherwise the output has length 4 + 8N, starts with N, and holds point i's words at offset 4 + 8i |
| BinaryFormat.DecodePointRecords | TP/Triangulator/binary_format.py:105-115 | the records decode exactly when every record is finite, and then give each record in order; otherwise the error is the non-finite one |
| BinaryFormat.DecodePointSet | TP/Triangulator/binary_format.py:96-115 | fewer than 4 bytes is "too short"; fewer than 4 + 8N bytes for the declared N is "truncated"; a NaN or infinity among the N records is rejected; these are the only errors, so every other buffer decodes to exactly N finite points, record by record, with bytes past 4 + 8N ignored |
| BinaryFormat.DecodeEncodePointSet | TP/Triangulator/binary_format.py:64-115 | every list of finite points whose count fits a u32 encodes and then decodes to the same list, the empty list included |
| BinaryFormat.EncodeDecodePointSet | TP/Triangulator/binary_format.py:64-115 | re-encoding a decoded point set reproduces the input up to its declared end, so trailing bytes are the only loss |
| BinaryFormat.TriangleRecord | TP/Triangulator/binary_format.py:152-157 | a triangle encodes exactly when it has 3 entries, all in [0, N); the wrong arity is reported first, then the first out-of-range index in order; the 12 bytes hold the three indices as u32 |
| BinaryFormat.TriangleRecords | TP/Triangulator/binary_format.py:151-157 | the triangles from index i on encode exactly when each one does, to 12 bytes each; the only errors are wrong arity and an out-of-range index |
| BinaryFormat.TriangleRecordsFirstFailure | TP/Triangulator/binary_format.py:151-156 | a rejected triangle list reports the error of the first failing triangle, every earlier one having passed |
| BinaryFormat.TriangleRecordsSlice | TP/Triangulator/binary_format.py:151-157 | record k of the encoded table is exactly the 12-byte record written for triangle k |
| BinaryFormat.EncodeTriangles | TP/Triangulator/binary_format.py:148-159 | succeeds exactly when both counts fit a u32 and every triangle has 3 in-range entries, with distinct vertices not required; either count too large is `CountOverflow`, checked before any triangle; otherwise a failure is the per-triangle error; the output is the encoded point set, then T, then 12 bytes per triangle, 4 + 8N + 4 + 12T bytes in all |
| BinaryFormat.DecodeTriangle | TP/Triangulator/binary_format.py:217-224 | a record decodes exactly when its three indices are in range and pairwise distinct; the first out-of-range index in order is reported before any repeated vertex |
| BinaryFormat.DecodeTriangleRecords | TP/Triangulator/binary_format.py:211-227 | the records from index i on decode exactly when each one does, giving the triangle of each record in order; errors are an out-of-range index or a repeated vertex |
| BinaryFormat.DecodeTriangleRecordsFirstFailure | TP/Triangulator/binary_format.py:214-225 | a failed decoding reports the error of the first failing record, every earlier record having decoded |
| BinaryFormat.DecodeTriangleSection | TP/Triangulator/binary_format.py:205-227 | the section is "truncated" exactly when the buffer is shorter than its count T of 12-byte records needs; it succeeds exactly when it fits and every record's three words are distinct indices in [0, N); triangle k is then the three words of record k; any other failure is that of the record table, an out-of-range index or a repeated vertex |
| BinaryFormat.DecodeTriangles | TP/Triangulator/binary_format.py:194-227 | fewer than 4 bytes is "too short", fewer than 4 + 8N + 4 is "truncated"; otherwise it succeeds exactly when the point prefix of 4 + 8N bytes and the triangle section after it both decode; a failing prefix gives its error before the section is read, and otherwise a failing section gives its error; on success the points are the point-set decoding of the prefix, the triangle count is the u32 that follows, and triangle k is the three words of record k, with distinct in-range vertices |
| BinaryFormat.DecodeEncodeTriangles | TP/Triangulator/binary_format.py:148-227 | finite points with triangles of three distinct in-range vertices encode, and decode back to the same points and triangles |
| BinaryFormat.DecodeTriangleRecordsOfEncoded | TP/Triangulator/binary_format.py:214-225 | the triangle records written by the encoder, copied anywhere into a buffer, decode back to the same triangles |
| BinaryFormat.EncodedRecordDecodes | TP/Triangulator/binary_format.py:215-224 | each single record written by the encoder for a well-formed triangle decodes to that triangle |
| BinaryFormat.DecodeTriangleRecordsAllOk | TP/Triangulator/binary_format.py:214-227 | when every record decodes to the matching triangle, the whole table decodes to the list of them |
| BinaryFormat.EncodeTrianglesLayout | TP/Triangulator/binary_format.py:148-159 | a successful encoding is the point-set encoding, then the triangle count as a u32, then the triangle records |
| BinaryFormat.DecodeTrianglesOfParts | TP/Triangulator/binary_format.py:194-227 | a buffer whose point prefix and triangle section each decode gives the mesh of both |
| BinaryFormat.LayoutTriangleSection | TP/Triangulator/binary_format.py:205-227 | after any prefix, the count followed by the encoder's records reads back as the same triangles |
| BinaryFormat.DecodeOfLayout | TP/Triangulator/binary_format.py:194-227 | a decodable point prefix, the triangle count and the encoder's records together decode to the same points and triangles |
| Geometry.CollinearFrom | TP/Triangulator/triangulator.py:141-147 | the scan from point i answers true exactly when every point from i on is within tolerance of the line through the first two points |
| Geometry.AreCollinear | TP/Triangulator/triangulator.py:135-147 | false for fewer than 3 points; otherwise true exactly when every point from the third on has a cross product with the first two of at most 1e-10 in absolute value |
| Geometry.PointsOnALineAreCollinear | TP/Triangulator/triangulator.py:135-147 | points placed exactly on the line through the first two are reported collinear, whatever their order and spacing |
| Validation.ExceptionOf | TP/Triangulator/triangulator.py:66-92 | a non-list and a non-numeric coordinate raise `TypeError`; every other validation failure raises `ValueError` |
| Validation.CheckPoint | TP/Triangulator/triangulator.py:78-92 | a point passes exactly when it is a pair of finite numbers; a malformed element is reported with its index, then a non-numeric coordinate, then NaN in either coordinate, then infinity in either coordinate |
| Validation.CheckPointsFrom | TP/Triangulator/triangulator.py:77-94 | the scan succeeds exactly when every point from i on is a finite pair and yields their values; on failure the error is that of the first failing point, and all points before it pass |
| Validation.CheckPoints | TP/Triangulator/triangulator.py:66-94 | a non-list, an empty list and 1–2 points are each reported before any per-point check; it succeeds exactly on lists of at least 3 finite pairs, yielding their values; otherwise the first failing point decides |
| Triangulator.CloseToLater | TP/Triangulator/triangulator.py:98-101 | true exactly when some later point from index j on is within 1e-10 of point i on both axes |
| Triangulator.DuplicateFrom | TP/Triangulator/triangulator.py:97-101 | true exactly when two positions at or after i hold points within tolerance of each other |
| Triangulator.HasDuplicates | TP/Triangulator/triangulator.py:96-101 | true exactly when two distinct positions hold points within 1e-10 of each other on both axes |
| Triangulator.Validate | TP/Triangulator/triangulator.py:66-101 | the per-point errors take precedence; "duplicate points" is reported exactly when every point passed and two are within tolerance |
| Triangulator.ValidateAcceptsExactlyValidInputs | TP/Triangulator/triangulator.py:66-101 | validation succeeds exactly on lists of at least 3 finite pairs with no two within tolerance, whatever the check order, and yields their coordinates |
| Triangulator.Insert | TP/Triangulator/triangulator.py:169 | inserting an index into a stably sorted index list keeps it stably sorted and adds exactly that index |
| Triangulator.SortIndices | TP/Triangulator/triangulator.py:169 | the result is a permutation of 0..n-1 ordered by (x, y), with equal keys kept in index order |
| Triangulator.StableSortIsUnique | TP/Triangulator/triangulator.py:169 | two index lists that are both stable (x, y) sorts of the same points are equal, so the sort specification fixes the fan |
| Triangulator.FanShape | TP/Triangulator/triangulator.py:172-180 | over any ordering of 0..n-1 without repeats, the fan has n - 2 triangles of three distinct in-range vertices; consecutive triangles share the anchor and an edge; every index appears in some triangle |
| Triangulator.Triangulation | TP/Triangulator/triangulator.py:150-180 | exactly 3 points give [(0, 1, 2)]; more give n - 2 triangles with pairwise-distinct in-range vertices, consecutive ones sharing the anchor and an edge, and every index covered |
| Triangulator.FanFollowsStableSort | TP/Triangulator/triangulator.py:168-180 | for more than 3 points, triangle i is (s[0], s[i+1], s[i+2]) for any stable (x, y) sort s of the indices |
| Triangulator.FanAnchorIsSmallest | TP/Triangulator/triangulator.py:169-180 | for more than 3 points, the first vertex of every triangle is a point that no other point precedes in (x, y) order |
| Triangulator.Triangulate | TP/Triangulator/triangulator.py:66-107 | succeeds exactly on valid inputs and otherwise reports the validation failure; collinear valid input gives an empty success; other valid input gives exactly the triangulation, (0, 1, 2) for three points and otherwise the fan of n - 2 triangles |
| StubTriangulator.Triangulate | TP/triangulator.py:63-96 | succeeds exactly when the shared checks pass, collinear or not, always with no triangle; otherwise reports the first failed check |
| StubTriangulator.StubDiffersOnlyOnDuplicates | TP/triangulator.py:63-96 | the stub fails with the same error as the fan triangulator except on duplicate points, which the stub accepts |
| StubTriangulator.CoincidentPointsPassTheStub | TP/triangulator.py:72-96 | three copies of one finite point give an empty success from the stub and "duplicate points" from the fan triangulator |
| PointSetManager.StorePointSet | TP/Triangulator/triangulator.py:223-227 | after storing, the store has one more key at most; the new key maps to the points; every other entry is unchanged |
| PointSetManager.GetPointSet | TP/Triangulator/triangulator.py:229-233 | raises `KeyError` exactly for an unknown id; otherwise returns the stored points |
| PointSetManager.GetAfterStore | TP/Triangulator/triangulator.py:223-233 | reading back a stored id gives the stored points, every other id reads as before, and a fresh id adds exactly one entry |
| Service.IsSafeId | TP/Triangulator/app.py:69-83 | an id is safe exactly when it is non-empty and contains neither `/` nor `\`; the prefix tests add nothing |
| Service.CodeNamesAreDistinct | TP/Triangulator/app.py:108-206 | the `code` strings of the error responses tell every error apart, including errors sent with the same status |
| Service.UuidIsSafe | TP/Triangulator/triangulator.py:225 | every 36-character string of lower-case hex digits and dashes, as `uuid4` produces, is a safe id |
| Service.RunTriangulate | TP/Triangulator/app.py:120-121 | the real `triangulate` returns exactly on valid input and otherwise raises only `ValueError` or `TypeError` |
| Service.DecodedPointsFailOnlyOnCountOrDuplicates | TP/Triangulator/binary_format.py:108-110 | points that came out of the decoder can only be refused by `triangulate` for being empty, being fewer than 3, or holding duplicates |
| Service.Escaped | TP/Triangulator/app.py:142-152 | an escaping `TimeoutError` gives 504, a `ConnectionError` 503, and everything else 500 INTERNAL_ERROR |
| Service.GetTriangulation | TP/Triangulator/app.py:108-152 | an unsafe id gives 400 INVALID_ID; a lookup `KeyError` gives 404, a `TimeoutError` 504 and a `ConnectionError` 503; a `ValueError` or `TypeError` from `triangulate` gives 400 TRIANGULATION_FAILED and any other exception from it 500 TRIANGULATION_ERROR; an encoder failure or other lookup exception gives 500 INTERNAL_ERROR; otherwise 200 with the encoded points and triangles |
| Service.TriangulationBodyDecodes | TP/Triangulator/app.py:119-140 | for stored finite points the answer is 200 exactly when they are valid input, and the body decodes to the points and their triangulation; otherwise 400 TRIANGULATION_FAILED |
| Service.StorePointSet | TP/Triangulator/app.py:176-206 | an empty body gives 400 EMPTY_BODY, then a body over 50 MiB 413, then an undecodable body 400 INVALID_FORMAT, with the store unchanged in each case; otherwise 201 with the new id, which now maps to the decoded points |
| Service.GetPointSet | TP/Triangulator/app.py:228-246 | an unsafe id gives 400 INVALID_ID; a `KeyError` gives 404; any other exception, the encoder's included, gives 500 INTERNAL_ERROR; otherwise 200 with the point-set encoding of the stored points: 4 + 8N bytes, the count N, then point i's words at offset 4 + 8i |
| Service.PointSetBodyDecodes | TP/Triangulator/app.py:233-239 | for stored finite points the 200 body decodes to exactly those points |
| Service.PostThenGetPointSet | TP/Triangulator/app.py:190-239 | after an accepted POST, GET of the new id returns the body's count and records, without any trailing bytes |
| Service.PostThenGetTriangulation | TP/Triangulator/app.py:114-140 | after an accepted POST, GET /triangulation of the new id gives 200 exactly when the points are valid input, with a body that decodes to the points and their triangulation; otherwise 400 TRIANGULATION_FAILED |
| LegacyService.IsValidId | TP/app.py:80-81 | an id passes exactly when it is non-empty and its first three characters are not `../` |
| LegacyService.IdCheckIsWeaker | TP/app.py:80-81 | every id the current service accepts is accepted here, but `a/b` is accepted here and rejected there |
| LegacyService.Caught | TP/app.py:93-96 | a `ValueError` gives 400 and every other exception 500 |
| LegacyService.GetTriangulation | TP/app.py:79-96 | an invalid id gives 400 and an unknown id 404; for a known id every answer other than 200 is 400, whether the bytes do not decode or decode to fewer than 3 points; the route answers 200 exactly when the stored bytes decode to at least 3 points, and the body is then exactly the triangulation encoding of those points with no triangle; no 500 is reachable |
| LegacyService.StorePointSet | TP/app.py:118-133 | an empty body gives 400; the route answers 201 exactly when the body decodes, mapping the new id to the raw bytes; otherwise 400 with the store unchanged |
| LegacyService.GetPointSet | TP/app.py:154-165 | an invalid id gives 400, an unknown id 404, and a known id 200 with the stored bytes |
| LegacyService.PostThenGetPointSet | TP/app.py:124-162 | a posted body is served back byte for byte, trailing bytes included |
| LegacyService.PostThenGetTriangulation | TP/app.py:86-126 | after an accepted POST, the triangulation route gives 200 with the posted points and no triangle exactly when there are at least 3 points, and 400 otherwise |
| LegacyService.PointSetRoutesAgreeIffNoTrailingBytes | TP/app.py:161-162 | for the same accepted body, the two versions' GET /pointset agree exactly when the body ends at its declared records |

## Left out

- Flask routing, `jsonify`, response objects and `app.run` are left out. Routes are functions from the request to a status and error code. The error messages are not modelled.
- `uuid.uuid4()` is a parameter, the identifier of the new entry. The round-trip lemmas require it to look like a UUID. Whether it is fresh matters only to the size of the store.
- The conversion of Python floats to binary32 in `pointset_to_binary` is not modelled. Neither is rounding in the tolerance tests or the cross product. Coordinates are binary32 bit patterns in the codec and exact reals in the triangulator.
- Triangulator.Triangulate: an integer coordinate too large for a double makes `float(x)` raise `OverflowError` while the validated points are built; the model has unbounded exact numbers and answers Ok there.
- Triangulator.Triangulation: requires at least one point. On an empty list `triangulate` would raise `IndexError` when it reads the first sorted index, but validation rejects fewer than 3 points before the fan is built, so no caller reaches that case.
- `_point_in_circumcircle` is never called and computes a floating-point determinant. No claim is made that the fan is a valid, non-overlapping or Delaunay triangulation; the code does not promise one.
- BinaryFormat.EncodeTriangles: the `isinstance(idx, int)` test is not modelled, because indices are integers by type.
- Service.StorePointSet: an exception raised by a replaced manager's `store_pointset` (500 INTERNAL_ERROR) is not modelled. The manager in the model only stores.
- Service.GetTriangulation: the stored value is a decoded point list. A replaced manager returning some other Python value is out of scope. Such values cannot come from `POST /pointset`.
- LegacyService: the `binary_format` module that `app.py` imports from its own directory is not part of this model. The codec of `Triangulator/binary_format.py` stands in for it. The `triangulate` used is the stub `triangulator.py` in that same directory.
- LegacyService.GetTriangulation: the store is a map. An exception raised while reading the dictionary is not modelled.
- The interactive test driver, the benchmark and the test suites are not modelled.

=== FILE: binary_format.dfy ===
/** The binary wire format of point sets and triangulations.

    PointSet layout: a u32 point count N, then N records of two binary32
    values (x then y), all little-endian: 4 + 8N bytes.
    Triangles layout: a PointSet, then a u32 triangle count T, then T
    records of three u32 indices: 4 + 8N + 4 + 12T bytes.

    Coordinates are carried as the 32 bits of their binary32 encoding, so
    encoding and decoding only move bits. */
module BinaryFormat {
  import opened Outcomes
  import opened Values
  import opened LittleEndian
  import Float32
  import Validation

  /** A point as it travels on the wire: the bits of its two coordinates. */
  datatype Point32 = Point32(x: u32, y: u32)

  /** A decoded triangulation: the point list and the triangles over it. */
  datatype Mesh = Mesh(points: seq<Point32>, triangles: seq<Triangle>)

  /** Why a conversion failed; every case but `CountOverflow` is a `ValueError`. */
  datatype CodecError =
    | TooShort                      // fewer than 4 bytes: no count to read
    | Truncated                     // the declared records run past the end
    | NonFinite                     // a decoded coordinate is NaN or an infinity
    | WrongArity                    // a triangle without exactly 3 entries
    | IndexOutOfRange(index: int)   // a triangle index outside [0, N)
    | DuplicateVertex               // a decoded triangle repeats an index
    | CountOverflow                 // `struct.error`: a count that does not fit a u32

  /** The exception class `binary_format.py` raises for each codec error. */
  function ExceptionOf(e: CodecError): (x: Exception)
    ensures x == StructError <==> e.CountOverflow?
    ensures x != StructError ==> x == ValueError
  {
    if e.CountOverflow? then StructError else ValueError
  }

  predicate IsFinitePoint(p: Point32) {
    Float32.IsFinite(p.x) && Float32.IsFinite(p.y)
  }

  predicate AllFinite(ps: seq<Point32>) {
    forall i :: 0 <= i < |ps| ==> IsFinitePoint(ps[i])
  }

  /** The point whose record starts at `b[off]`. */
  function PointAt(b: Bytes, off: nat): Point32
    requires off + 8 <= |b|
  {
    Point32(ReadU32(b, off), ReadU32(b, off + 4))
  }

  /** The list of `(x, y)` float tuples `binary_to_pointset` returns, as a
      Python value. */
  function ToPointsValue(ps: seq<Point32>): (v: PointsValue)
    ensures v.List? && |v.items| == |ps|
    ensures forall j :: 0 <= j < |ps| ==>
      (Validation.IsFinitePair(v.items[j]) <==> IsFinitePoint(ps[j]))
  {
    List(seq(|ps|, j requires 0 <= j < |ps| =>
      Pair(Number(Float32.ToNum(ps[j].x)), Number(Float32.ToNum(ps[j].y)))))
  }

  // ---------------------------------------------------------------- points

  /** The 8-byte records of `ps`, in list order. */
  function PointRecords(ps: seq<Point32>): (r: Bytes)
    ensures |r| == 8 * |ps|
    ensures forall i :: 0 <= i < |ps| ==> PointAt(r, 8 * i) == ps[i]
  {
    if ps == [] then []
    else
      var head := U32Bytes(ps[0].x) + U32Bytes(ps[0].y);
      ReadU32OfU32Bytes(ps[0].x);
      ReadU32OfU32Bytes(ps[0].y);
      ReadU32Append(U32Bytes(ps[0].x), U32Bytes(ps[0].y), 0);
      var rest := PointRecords(ps[1..]);
      ReadU32Append(head, rest, 0);
      ReadU32Append(head, rest, 4);
      assert forall i :: 1 <= i < |ps| ==> PointAt(head + rest, 8 * i) == PointAt(rest, 8 * (i - 1)) by {
        forall i | 1 <= i < |ps| ensures PointAt(head + rest, 8 * i) == PointAt(rest, 8 * (i - 1)) {
          ReadU32Append(head, rest, 8 * (i - 1));
          ReadU32Append(head, rest, 8 * (i - 1) + 4);
        }
      }
      head + rest
  }

  /** `pointset_to_binary`: the count, then each point's record in order.
      Only a count that does not fit a u32 makes `struct.pack` fail. */
  function EncodePointSet(ps: seq<Point32>): (r: Result<Bytes, CodecError>)
    ensures r.Err? <==> |ps| >= U32_LIMIT
    ensures r.Err? ==> r.error == CountOverflow
    ensures r.Ok? ==> |r.value| == 4 + 8 * |ps|
    ensures r.Ok? ==> ReadU32(r.value, 0) == |ps|
    ensures r.Ok? ==> forall i :: 0 <= i < |ps| ==> PointAt(r.value, 4 + 8 * i) == ps[i]
  {
    if |ps| >= U32_LIMIT then Err(CountOverflow)
    else
      var records := PointRecords(ps);
      ReadU32OfU32Bytes(|ps|);
      assert forall i :: 0 <= i < |ps| ==>
        PointAt(U32Bytes(|ps|) + records, 4 + 8 * i) == PointAt(records, 8 * i);
      Ok(U32Bytes(|ps|) + records)
  }

  /** The `count` point records starting at `b[off]`. The loop in
      `binary_to_pointset` stops at the first record holding a NaN or an infinity; every such
      record raises the same error, so which one is first does not show. */
  function DecodePointRecords(b: Bytes, off: nat, count: nat): (r: Result<seq<Point32>, CodecError>)
    requires off + 8 * count <= |b|
    ensures r.Ok? <==> forall i :: 0 <= i < count ==> IsFinitePoint(PointAt(b, off + 8 * i))
    ensures r.Err? ==> r.error == NonFinite
    ensures r.Ok? ==> |r.value| == count
    ensures r.Ok? ==> forall i :: 0 <= i < count ==> r.value[i] == PointAt(b, off + 8 * i)
  {
    if forall i :: 0 <= i < count ==> IsFinitePoint(PointAt(b, off + 8 * i)) then
      Ok(seq(count, i requires 0 <= i < count => PointAt(b, off + 8 * i)))
    else Err(NonFinite)
  }

  /** `binary_to_pointset`. Bytes past the declared records are ignored. */
  function DecodePointSet(b: Bytes): (r: Result<seq<Point32>, CodecError>)
    ensures |b| < 4 <==> r == Err(TooShort)
    ensures r == Err(Truncated) <==> 4 <= |b| < 4 + 8 * ReadU32(b, 0)
    ensures r == Err(NonFinite) <==>
      4 <= |b| && 4 + 8 * ReadU32(b, 0) <= |b|
      && exists i :: 0 <= i < ReadU32(b, 0) && !IsFinitePoint(PointAt(b, 4 + 8 * i))
    ensures r.Err? ==> r.error == TooShort || r.error == Truncated || r.error == NonFinite
    ensures r.Ok? ==> |r.value| == ReadU32(b, 0) && 4 + 8 * |r.value| <= |b|
    ensures r.Ok? ==> AllFinite(r.value)
    ensures r.Ok? ==> forall i :: 0 <= i < |r.value| ==> r.value[i] == PointAt(b, 4 + 8 * i)
  {
    if |b| < 4 then Err(TooShort)
    else
      var n := ReadU32(b, 0);
      if |b| < 4 + 8 * n then Err(Truncated)
      else DecodePointRecords(b, 4, n)
  }

  /** Decoding an encoded finite point list gives the list back. */
  lemma DecodeEncodePointSet(ps: seq<Point32>)
    requires |ps| < U32_LIMIT
    requires AllFinite(ps)
    ensures EncodePointSet(ps).Ok?
    ensures DecodePointSet(EncodePointSet(ps).value) == Ok(ps)
  {
    var b := EncodePointSet(ps).value;
    var r := DecodePointSet(b);
    assert ReadU32(b, 0) == |ps|;
    assert forall i :: 0 <= i < |ps| ==> IsFinitePoint(PointAt(b, 4 + 8 * i)) by {
      forall i | 0 <= i < |ps| ensures IsFinitePoint(PointAt(b, 4 + 8 * i)) {
        assert PointAt(b, 4 + 8 * i) == ps[i];
      }
    }
    assert r.Ok?;
    assert r.value == ps;
  }

  /** The record of the point read at `b[off]` is the 8 bytes it was read from. */
  lemma RecordOfRead(b: Bytes, off: nat)
    requires off + 8 <= |b|
    ensures U32Bytes(PointAt(b, off).x) + U32Bytes(PointAt(b, off).y) == b[off..off + 8]
  {
    U32BytesOfRead(b, off);
    U32BytesOfRead(b, off + 4);
    assert b[off..off + 8] == b[off..off + 4] + b[off + 4..off + 8];
  }

  /** The records of a list read from `b` are the bytes it was read from. */
  lemma {:induction false} PointRecordsOfRead(b: Bytes, off: nat, ps: seq<Point32>)
    requires off + 8 * |ps| <= |b|
    requires forall i :: 0 <= i < |ps| ==> ps[i] == PointAt(b, off + 8 * i)
    ensures PointRecords(ps) == b[off..off + 8 * |ps|]
    decreases |ps|
  {
    if ps != [] {
      var head := U32Bytes(ps[0].x) + U32Bytes(ps[0].y);
      assert PointRecords(ps) == head + PointRecords(ps[1..]);
      RecordOfRead(b, off);
      forall i | 0 <= i < |ps| - 1 ensures ps[1..][i] == PointAt(b, off + 8 + 8 * i) {
        assert ps[1..][i] == ps[i + 1];
        assert off + 8 * (i + 1) == off + 8 + 8 * i;
      }
      PointRecordsOfRead(b, off + 8, ps[1..]);
      assert b[off..off + 8 * |ps|] == b[off..off + 8] + b[off + 8..off + 8 + 8 * (|ps| - 1)];
    }
  }

  /** Re-encoding a decoded point list gives back exactly the bytes the
      list was read from: the count and the N records, without any
      trailing bytes. */
  lemma EncodeDecodePointSet(b: Bytes)
    requires DecodePointSet(b).Ok?
    ensures EncodePointSet(DecodePointSet(b).value) == Ok(b[..4 + 8 * |DecodePointSet(b).value|])
  {
    var ps := DecodePointSet(b).value;
    PointRecordsOfRead(b, 4, ps);
    U32BytesOfRead(b, 0);
    assert b[..4 + 8 * |ps|] == b[0..4] + b[4..4 + 8 * |ps|];
  }

  // ------------------------------------------------------------- triangles

  /** The three u32 fields of one triangle, after checking its arity and,
      in order, that each index lies in [0, n). Repeated indices are
      accepted: the encoder does not check distinctness. */
  function TriangleRecord(t: seq<int>, n: nat): (r: Result<Bytes, CodecError>)
    requires n <= U32_LIMIT
    ensures r.Ok? <==> |t| == 3 && (forall k :: 0 <= k < 3 ==> 0 <= t[k] < n)
    ensures |t| != 3 ==> r == Err(WrongArity)
    ensures |t| == 3 && !(0 <= t[0] < n) ==> r == Err(IndexOutOfRange(t[0]))
    ensures |t| == 3 && 0 <= t[0] < n && !(0 <= t[1] < n) ==> r == Err(IndexOutOfRange(t[1]))
    ensures |t| == 3 && 0 <= t[0] < n && 0 <= t[1] < n && !(0 <= t[2] < n) ==> r == Err(IndexOutOfRange(t[2]))
    ensures r.Ok? ==> |r.value| == 12
    ensures r.Ok? ==> ReadU32(r.value, 0) == t[0] && ReadU32(r.value, 4) == t[1] && ReadU32(r.value, 8) == t[2]
  {
    if |t| != 3 then Err(WrongArity)
    else if !(0 <= t[0] < n) then Err(IndexOutOfRange(t[0]))
    else if !(0 <= t[1] < n) then Err(IndexOutOfRange(t[1]))
    else if !(0 <= t[2] < n) then Err(IndexOutOfRange(t[2]))
    else
      ReadU32OfU32Bytes(t[0]);
      ReadU32OfU32Bytes(t[1]);
      ReadU32OfU32Bytes(t[2]);
      var r := U32Bytes(t[0]) + U32Bytes(t[1]) + U32Bytes(t[2]);
      assert ReadU32(r, 4) == ReadU32(U32Bytes(t[1]), 0);
      assert ReadU32(r, 8) == ReadU32(U32Bytes(t[2]), 0);
      Ok(r)
  }

  /** The records of the triangles from index `i` on, in order; the first
      triangle that fails its check decides the error. */
  function TriangleRecords(ts: seq<seq<int>>, i: nat, n: nat): (r: Result<Bytes, CodecError>)
    requires i <= |ts| && n <= U32_LIMIT
    ensures r.Ok? <==> forall k :: i <= k < |ts| ==> TriangleRecord(ts[k], n).Ok?
    ensures r.Err? ==> r.error.WrongArity? || r.error.IndexOutOfRange?
    ensures r.Ok? ==> |r.value| == 12 * (|ts| - i)
    decreases |ts| - i
  {
    if i == |ts| then Ok([])
    else
      match TriangleRecord(ts[i], n)
      case Err(e) => Err(e)
      case Ok(head) =>
        match TriangleRecords(ts, i + 1, n)
        case Err(e) => Err(e)
        case Ok(rest) => Ok(head + rest)
  }

  /** When the encoder rejects a triangle, the error is that of the first
      triangle that fails its check, every earlier one having passed. */
  lemma {:induction false} TriangleRecordsFirstFailure(ts: seq<seq<int>>, i: nat, n: nat)
    requires i <= |ts| && n <= U32_LIMIT
    requires TriangleRecords(ts, i, n).Err?
    ensures exists k ::
              && i <= k < |ts|
              && TriangleRecord(ts[k], n) == Err(TriangleRecords(ts, i, n).error)
              && (forall j :: i <= j < k ==> TriangleRecord(ts[j], n).Ok?)
    decreases |ts| - i
  {
    if TriangleRecord(ts[i], n).Ok? {
      TriangleRecordsFirstFailure(ts, i + 1, n);
      var k :| i + 1 <= k < |ts|
        && TriangleRecord(ts[k], n) == Err(TriangleRecords(ts, i + 1, n).error)
        && forall j :: i + 1 <= j < k ==> TriangleRecord(ts[j], n).Ok?;
      assert forall j :: i <= j < k ==> TriangleRecord(ts[j], n).Ok?;
    } else {
      assert TriangleRecord(ts[i], n) == Err(TriangleRecords(ts, i, n).error);
    }
  }

  /** `triangles_to_binary`: the PointSet encoding of `ps`, the triangle
      count, then three u32 indices per triangle. Fails when a count does not
      fit a u32, when a triangle does not have 3 entries, or when an index is
      outside [0, |ps|). */
  function EncodeTriangles(ps: seq<Point32>, ts: seq<seq<int>>): (r: Result<Bytes, CodecError>)
    ensures r.Ok? <==>
      |ps| < U32_LIMIT && |ts| < U32_LIMIT
      && forall i :: 0 <= i < |ts| ==> |ts[i]| == 3 && forall k :: 0 <= k < 3 ==> 0 <= ts[i][k] < |ps|
    ensures |ps| >= U32_LIMIT ==> r == Err(CountOverflow)
    ensures |ts| >= U32_LIMIT ==> r == Err(CountOverflow)
    ensures |ps| < U32_LIMIT && |ts| < U32_LIMIT ==>
              (r.Err? <==> TriangleRecords(ts, 0, |ps|).Err?)
              && (r.Err? ==> r.error == TriangleRecords(ts, 0, |ps|).error)
    ensures r.Ok? ==> |r.value| == 4 + 8 * |ps| + 4 + 12 * |ts|
    ensures r.Ok? ==> r.value[..4 + 8 * |ps|] == EncodePointSet(ps).value
    ensures r.Ok? ==> ReadU32(r.value, 4 + 8 * |ps|) == |ts|
  {
    match EncodePointSet(ps)
    case Err(e) => Err(e)
    case Ok(head) =>
      if |ts| >= U32_LIMIT then Err(CountOverflow)
      else
        match TriangleRecords(ts, 0, |ps|)
        case Err(e) => Err(e)
        case Ok(records) =>
          ReadU32OfU32Bytes(|ts|);
          var r := head + U32Bytes(|ts|) + records;
          assert ReadU32(r, 4 + 8 * |ps|) == ReadU32(U32Bytes(|ts|), 0);
          assert r[..4 + 8 * |ps|] == head;
          Ok(r)
  }

  /** One decoded triangle record: each index is checked against `n`, in
      order, before the three are checked for distinctness. */
  function DecodeTriangle(a: u32, b: u32, c: u32, n: nat): (r: Result<Triangle, CodecError>)
    ensures r.Ok? <==> Triangle(a, b, c).WellFormedFor(n)
    ensures r.Ok? ==> r.value == Triangle(a, b, c)
    ensures r == Err(DuplicateVertex) <==> a < n && b < n && c < n && (a == b || b == c || a == c)
    ensures a >= n ==> r == Err(IndexOutOfRange(a))
    ensures a < n && b >= n ==> r == Err(IndexOutOfRange(b))
    ensures a < n && b < n && c >= n ==> r == Err(IndexOutOfRange(c))
  {
    if a >= n then Err(IndexOutOfRange(a))
    else if b >= n then Err(IndexOutOfRange(b))
    else if c >= n then Err(IndexOutOfRange(c))
    else if a == b || b == c || a == c then Err(DuplicateVertex)
    else Ok(Triangle(a, b, c))
  }

  /** The three words of the record starting at `b[off]`, unchecked. */
  function RecordTriangle(b: Bytes, off: nat): Triangle
    requires off + 12 <= |b|
  {
    Triangle(ReadU32(b, off), ReadU32(b, off + 4), ReadU32(b, off + 8))
  }

  /** The triangle whose record starts at `b[off]`. */
  function TriangleAt(b: Bytes, off: nat, n: nat): Result<Triangle, CodecError>
    requires off + 12 <= |b|
  {
    DecodeTriangle(ReadU32(b, off), ReadU32(b, off + 4), ReadU32(b, off + 8), n)
  }

  /** The triangle records `i` to `count - 1` of the table at `b[base]`;
      the first record that fails decides the error. */
  function DecodeTriangleRecords(b: Bytes, base: nat, i: nat, count: nat, n: nat): (r: Result<seq<Triangle>, CodecError>)
    requires i <= count && base + 12 * count <= |b|
    ensures r.Ok? <==> forall k :: i <= k < count ==> TriangleAt(b, base + 12 * k, n).Ok?
    ensures r.Err? ==> r.error.IndexOutOfRange? || r.error == DuplicateVertex
    ensures r.Ok? ==> |r.value| == count - i
    ensures r.Ok? ==> forall k :: i <= k < count ==> r.value[k - i] == TriangleAt(b, base + 12 * k, n).value
    decreases count - i
  {
    if i == count then Ok([])
    else
      match TriangleAt(b, base + 12 * i, n)
      case Err(e) => Err(e)
      case Ok(t) =>
        match DecodeTriangleRecords(b, base, i + 1, count, n)
        case Err(e) => Err(e)
        case Ok(rest) => Ok([t] + rest)
  }

  /** When the records fail, the error is that of the first failing record. */
  lemma {:induction false} DecodeTriangleRecordsFirstFailure(b: Bytes, base: nat, i: nat, count: nat, n: nat)
    requires i <= count && base + 12 * count <= |b|
    requires DecodeTriangleRecords(b, base, i, count, n).Err?
    ensures exists k ::
              && i <= k < count
              && TriangleAt(b, base + 12 * k, n) == Err(DecodeTriangleRecords(b, base, i, count, n).error)
              && (forall j :: i <= j < k ==> TriangleAt(b, base + 12 * j, n).Ok?)
    decreases count - i
  {
    if TriangleAt(b, base + 12 * i, n).Ok? {
      DecodeTriangleRecordsFirstFailure(b, base, i + 1, count, n);
      var k :| i + 1 <= k < count
        && TriangleAt(b, base + 12 * k, n) == Err(DecodeTriangleRecords(b, base, i + 1, count, n).error)
        && forall j :: i + 1 <= j < k ==> TriangleAt(b, base + 12 * j, n).Ok?;
      assert forall j :: i <= j < k ==> TriangleAt(b, base + 12 * j, n).Ok?;
    } else {
      assert TriangleAt(b, base + 12 * i, n) == Err(DecodeTriangleRecords(b, base, i, count, n).error);
    }
  }

  /** The triangle part of `binary_to_triangles`, starting at `b[pEnd]`:
      the count T, a length check, then T records over `n` points. */
  function DecodeTriangleSection(b: Bytes, pEnd: nat, n: nat): (r: Result<seq<Triangle>, CodecError>)
    requires pEnd + 4 <= |b|
    ensures r == Err(Truncated) <==> |b| < pEnd + 4 + 12 * ReadU32(b, pEnd)
    ensures r.Ok? <==>
              && pEnd + 4 + 12 * ReadU32(b, pEnd) <= |b|
              && forall k :: 0 <= k < ReadU32(b, pEnd) ==> RecordTriangle(b, pEnd + 4 + 12 * k).WellFormedFor(n)
    ensures r.Err? ==> r.error == Truncated || r.error.IndexOutOfRange? || r.error == DuplicateVertex
    ensures pEnd + 4 + 12 * ReadU32(b, pEnd) <= |b| ==>
              r == DecodeTriangleRecords(b, pEnd + 4, 0, ReadU32(b, pEnd), n)
    ensures r.Ok? ==> |r.value| == ReadU32(b, pEnd) && pEnd + 4 + 12 * |r.value| <= |b|
    ensures r.Ok? ==> forall k :: 0 <= k < |r.value| ==> r.value[k] == RecordTriangle(b, pEnd + 4 + 12 * k)
    ensures r.Ok? ==> forall i :: 0 <= i < |r.value| ==> r.value[i].WellFormedFor(n)
  {
    var t := ReadU32(b, pEnd);
    if |b| < pEnd + 4 + 12 * t then Err(Truncated)
    else
      var r := DecodeTriangleRecords(b, pEnd + 4, 0, t, n);
      assert r.Ok? ==> forall k :: 0 <= k < t ==> r.value[k] == TriangleAt(b, pEnd + 4 + 12 * k, n).value;
      r
  }

  /** `binary_to_triangles`. The point prefix is decoded by the PointSet
      rules; then the triangle count and records are read, each length
      checked before it is read. */
  function DecodeTriangles(b: Bytes): (r: Result<Mesh, CodecError>)
    ensures |b| < 4 <==> r == Err(TooShort)
    ensures |b| >= 4 && |b| < 4 + 8 * ReadU32(b, 0) + 4 ==> r == Err(Truncated)
    ensures r.Ok? ==> |b| >= 4 && |r.value.points| == ReadU32(b, 0)
    ensures r.Ok? ==> 4 + 8 * |r.value.points| + 4 + 12 * |r.value.triangles| <= |b|
    ensures r.Ok? ==> DecodePointSet(b[..4 + 8 * ReadU32(b, 0)]) == Ok(r.value.points)
    ensures r.Ok? ==> ReadU32(b, 4 + 8 * ReadU32(b, 0)) == |r.value.triangles|
    ensures r.Ok? ==> forall i :: 0 <= i < |r.value.triangles| ==>
      r.value.triangles[i].WellFormedFor(ReadU32(b, 0))
    ensures 4 <= |b| && 4 + 8 * ReadU32(b, 0) + 4 <= |b| ==>
              (r.Ok? <==>
                 && DecodePointSet(b[..4 + 8 * ReadU32(b, 0)]).Ok?
                 && DecodeTriangleSection(b, 4 + 8 * ReadU32(b, 0), ReadU32(b, 0)).Ok?)
    ensures 4 <= |b| && 4 + 8 * ReadU32(b, 0) + 4 <= |b| && DecodePointSet(b[..4 + 8 * ReadU32(b, 0)]).Err? ==>
              r == Err(DecodePointSet(b[..4 + 8 * ReadU32(b, 0)]).error)
    ensures 4 <= |b| && 4 + 8 * ReadU32(b, 0) + 4 <= |b| && DecodePointSet(b[..4 + 8 * ReadU32(b, 0)]).Ok?
            && DecodeTriangleSection(b, 4 + 8 * ReadU32(b, 0), ReadU32(b, 0)).Err? ==>
              r == Err(DecodeTriangleSection(b, 4 + 8 * ReadU32(b, 0), ReadU32(b, 0)).error)
    ensures r.Ok? ==> DecodeTriangleSection(b, 4 + 8 * ReadU32(b, 0), ReadU32(b, 0)) == Ok(r.value.triangles)
    ensures r.Ok? ==> forall k :: 0 <= k < |r.value.triangles| ==>
      r.value.triangles[k] == RecordTriangle(b, 4 + 8 * ReadU32(b, 0) + 4 + 12 * k)
  {
    if |b| < 4 then Err(TooShort)
    else
      var n := ReadU32(b, 0);
      var pEnd := 4 + 8 * n;
      if |b| < pEnd + 4 then Err(Truncated)
      else
        match DecodePointSet(b[..pEnd])
        case Err(e) => Err(e)
        case Ok(points) =>
          // `binary_to_triangles` checks indices against `len(points)`, which is `n`.
          assert |points| == n;
          match DecodeTriangleSection(b, pEnd, n)
          case Err(e) => Err(e)
          case Ok(triangles) => Ok(Mesh(points, triangles))
  }

  /** Well-formed triangles pass the encoder's per-triangle checks. */
  lemma TriangleRecordsAccept(ts: seq<Triangle>, n: nat)
    requires n < U32_LIMIT
    requires forall i :: 0 <= i < |ts| ==> ts[i].WellFormedFor(n)
    ensures TriangleRecords(IndexLists(ts), 0, n).Ok?
  {
    var lists := IndexLists(ts);
    assert forall i :: 0 <= i < |ts| ==> TriangleRecord(lists[i], n).Ok?;
  }

  /** The record written for a well-formed triangle decodes to that triangle. */
  lemma TriangleAtOfRecord(b: Bytes, off: nat, t: Triangle, n: nat)
    requires n < U32_LIMIT && t.WellFormedFor(n)
    requires off + 12 <= |b|
    requires b[off..off + 12] == TriangleRecord(t.Indices(), n).value
    ensures TriangleAt(b, off, n) == Ok(t)
  {
    var head := TriangleRecord(t.Indices(), n).value;
    assert ReadU32(b, off) == ReadU32(head, 0);
    assert ReadU32(b, off + 4) == ReadU32(head, 4);
    assert ReadU32(b, off + 8) == ReadU32(head, 8);
  }

  /** Record `k` of the encoded table is the record of triangle `k`. */
  lemma {:induction false} TriangleRecordsSlice(ts: seq<seq<int>>, i: nat, n: nat, k: nat)
    requires i <= k < |ts| && n <= U32_LIMIT
    requires TriangleRecords(ts, i, n).Ok?
    ensures TriangleRecord(ts[k], n).Ok?
    ensures TriangleRecords(ts, i, n).value[12 * (k - i)..12 * (k - i) + 12] == TriangleRecord(ts[k], n).value
    decreases k - i
  {
    var head := TriangleRecord(ts[i], n).value;
    var rest := TriangleRecords(ts, i + 1, n).value;
    var all := TriangleRecords(ts, i, n).value;
    assert all == head + rest;
    if k > i {
      TriangleRecordsSlice(ts, i + 1, n, k);
      SliceAfterPrefix(head, rest, 12 * (k - i - 1), 12);
    }
  }

  /** A slice taken past a prefix is a slice of what follows it. */
  lemma SliceAfterPrefix(a: Bytes, r: Bytes, m: nat, len: nat)
    requires m + len <= |r|
    ensures (a + r)[|a| + m..|a| + m + len] == r[m..m + len]
  {
    var s := (a + r)[|a| + m..|a| + m + len];
    var t := r[m..m + len];
    forall j | 0 <= j < |s| ensures s[j] == t[j] {
      assert s[j] == (a + r)[|a| + m + j];
    }
  }

  /** Decoding the records written for well-formed triangles, wherever
      they sit in a buffer, gives those triangles back. */
  lemma DecodeTriangleRecordsOfEncoded(b: Bytes, base: nat, ts: seq<Triangle>, n: nat, records: Bytes)
    requires n < U32_LIMIT
    requires forall k :: 0 <= k < |ts| ==> ts[k].WellFormedFor(n)
    requires TriangleRecords(IndexLists(ts), 0, n) == Ok(records)
    requires base + |records| <= |b| && b[base..base + |records|] == records
    ensures DecodeTriangleRecords(b, base, 0, |ts|, n) == Ok(ts)
  {
    forall k | 0 <= k < |ts| ensures TriangleAt(b, base + 12 * k, n) == Ok(ts[k]) {
      EncodedRecordDecodes(b, base, ts, n, records, k);
    }
    DecodeTriangleRecordsAllOk(b, base, ts, n);
  }

  /** Records that each decode to the matching triangle decode together to
      the whole list. */
  lemma DecodeTriangleRecordsAllOk(b: Bytes, base: nat, ts: seq<Triangle>, n: nat)
    requires base + 12 * |ts| <= |b|
    requires forall k :: 0 <= k < |ts| ==> TriangleAt(b, base + 12 * k, n) == Ok(ts[k])
    ensures DecodeTriangleRecords(b, base, 0, |ts|, n) == Ok(ts)
  {
    forall k | 0 <= k < |ts| ensures TriangleAt(b, base + 12 * k, n).Ok? {
      assert TriangleAt(b, base + 12 * k, n) == Ok(ts[k]);
    }
    var r := DecodeTriangleRecords(b, base, 0, |ts|, n);
    forall k | 0 <= k < |ts| ensures r.value[k] == ts[k] {
      assert TriangleAt(b, base + 12 * k, n) == Ok(ts[k]);
    }
    assert r.value == ts;
  }

  /** Record `k` of the table written for well-formed triangles decodes to
      triangle `k`. */
  lemma EncodedRecordDecodes(b: Bytes, base: nat, ts: seq<Triangle>, n: nat, records: Bytes, k: nat)
    requires n < U32_LIMIT && k < |ts|
    requires forall j :: 0 <= j < |ts| ==> ts[j].WellFormedFor(n)
    requires TriangleRecords(IndexLists(ts), 0, n) == Ok(records)
    requires base + |records| <= |b| && b[base..base + |records|] == records
    ensures TriangleAt(b, base + 12 * k, n) == Ok(ts[k])
  {
    TriangleRecordsSlice(IndexLists(ts), 0, n, k);
    RecordInBuffer(b, base, records, k, ts[k], n);
  }

  /** A slice of a slice is a slice of the original. */
  lemma SubSlice(b: Bytes, base: nat, len: nat, lo: nat, hi: nat)
    requires base + len <= |b| && lo <= hi <= len
    ensures b[base..base + len][lo..hi] == b[base + lo..base + hi]
  {
    var outer := b[base..base + len];
    var s := outer[lo..hi];
    var t := b[base + lo..base + hi];
    forall j | 0 <= j < |s| ensures s[j] == t[j] {
      assert s[j] == outer[lo + j];
    }
  }

  /** A well-formed triangle's record placed at record slot `k` of a table
      copied into `b` at `base` decodes to that triangle. */
  lemma RecordInBuffer(b: Bytes, base: nat, records: Bytes, k: nat, t: Triangle, n: nat)
    requires base + |records| <= |b| && 12 * k + 12 <= |records|
    requires b[base..base + |records|] == records
    requires n < U32_LIMIT && t.WellFormedFor(n)
    requires records[12 * k..12 * k + 12] == TriangleRecord(t.Indices(), n).value
    ensures TriangleAt(b, base + 12 * k, n) == Ok(t)
  {
    SubSlice(b, base, |records|, 12 * k, 12 * k + 12);
    assert b[base + 12 * k..base + 12 * k + 12] == TriangleRecord(t.Indices(), n).value;
    TriangleAtOfRecord(b, base + 12 * k, t, n);
  }

  /** The layout `triangles_to_binary` writes: the encoded point set, the
      triangle count, the triangle records. */
  lemma EncodeTrianglesLayout(ps: seq<Point32>, ts: seq<seq<int>>)
    requires EncodeTriangles(ps, ts).Ok?
    ensures EncodePointSet(ps).Ok? && |ts| < U32_LIMIT && TriangleRecords(ts, 0, |ps|).Ok?
    ensures EncodeTriangles(ps, ts).value ==
      EncodePointSet(ps).value + U32Bytes(|ts|) + TriangleRecords(ts, 0, |ps|).value
  {
  }

  /** `binary_to_triangles` succeeds on a buffer whose parts each decode:
      the point prefix of the declared length, then the triangle section. */
  lemma DecodeTrianglesOfParts(b: Bytes, ps: seq<Point32>, ts: seq<Triangle>)
    requires 4 + 8 * |ps| + 4 <= |b| && ReadU32(b, 0) == |ps|
    requires DecodePointSet(b[..4 + 8 * |ps|]) == Ok(ps)
    requires DecodeTriangleSection(b, 4 + 8 * |ps|, |ps|) == Ok(ts)
    ensures DecodeTriangles(b) == Ok(Mesh(ps, ts))
  {
  }

  /** Decoding what `triangles_to_binary` wrote for finite points and
      well-formed triangles gives both lists back. */
  lemma DecodeEncodeTriangles(ps: seq<Point32>, ts: seq<Triangle>)
    requires |ps| < U32_LIMIT && |ts| < U32_LIMIT
    requires AllFinite(ps)
    requires forall i :: 0 <= i < |ts| ==> ts[i].WellFormedFor(|ps|)
    ensures EncodeTriangles(ps, IndexLists(ts)).Ok?
    ensures DecodeTriangles(EncodeTriangles(ps, IndexLists(ts)).value) == Ok(Mesh(ps, ts))
  {
    var lists := IndexLists(ts);
    TriangleRecordsAccept(ts, |ps|);
    EncodeTrianglesLayout(ps, lists);
    DecodeEncodePointSet(ps);
    DecodeOfLayout(ps, ts, EncodePointSet(ps).value, TriangleRecords(lists, 0, |ps|).value);
  }

  /** A buffer laid out as a decodable point prefix, the triangle count and
      the records written for well-formed triangles decodes to both lists. */
  lemma DecodeOfLayout(ps: seq<Point32>, ts: seq<Triangle>, head: Bytes, records: Bytes)
    requires |ps| < U32_LIMIT && |ts| < U32_LIMIT
    requires forall i :: 0 <= i < |ts| ==> ts[i].WellFormedFor(|ps|)
    requires |head| == 4 + 8 * |ps| && ReadU32(head, 0) == |ps|
    requires DecodePointSet(head) == Ok(ps)
    requires TriangleRecords(IndexLists(ts), 0, |ps|) == Ok(records)
    ensures DecodeTriangles(head + U32Bytes(|ts|) + records) == Ok(Mesh(ps, ts))
  {
    var b := head + U32Bytes(|ts|) + records;
    Concat3(head, U32Bytes(|ts|), records);
    assert ReadU32(b, 0) == |ps| && b[..|head|] == head;
    LayoutTriangleSection(head, ts, |ps|, records);
    DecodeTrianglesOfParts(b, ps, ts);
  }

  /** After any prefix, the triangle count followed by the records written
      for well-formed triangles reads back as those triangles. */
  lemma LayoutTriangleSection(head: Bytes, ts: seq<Triangle>, n: nat, records: Bytes)
    requires n < U32_LIMIT && |ts| < U32_LIMIT
    requires forall i :: 0 <= i < |ts| ==> ts[i].WellFormedFor(n)
    requires TriangleRecords(IndexLists(ts), 0, n) == Ok(records)
    ensures DecodeTriangleSection(head + U32Bytes(|ts|) + records, |head|, n) == Ok(ts)
  {
    var b := head + U32Bytes(|ts|) + records;
    Concat3(head, U32Bytes(|ts|), records);
    ReadU32OfU32Bytes(|ts|);
    DecodeTriangleRecordsOfEncoded(b, |head| + 4, ts, n, records);
    DecodeTriangleSectionOfRecords(b, |head|, ts, n);
  }

  /** A triangle section whose count fits the buffer reads back the
      decoded records. */
  lemma DecodeTriangleSectionOfRecords(b: Bytes, pEnd: nat, ts: seq<Triangle>, n: nat)
    requires pEnd + 4 + 12 * |ts| <= |b| && ReadU32(b, pEnd) == |ts|
    requires DecodeTriangleRecords(b, pEnd + 4, 0, |ts|, n) == Ok(ts)
    ensures DecodeTriangleSection(b, pEnd, n) == Ok(ts)
  {
  }
}

=== FILE: float32.dfy ===
/** The IEEE-754 binary32 reading of a 32-bit word: what `struct.unpack('<f')`
    yields and what `math.isfinite` says about it. Only the classification
    and the exact value of each bit pattern are modelled; no arithmetic is
    done on floats. */
module Float32 {
  import opened Values
  import opened LittleEndian

  /** The 8-bit biased exponent field (bits 23..30). */
  function ExponentField(w: u32): (e: int)
    ensures 0 <= e < 0x100
  {
    (w / 0x80_0000) % 0x100
  }

  /** The 23-bit fraction field (bits 0..22). */
  function FractionField(w: u32): (f: int)
    ensures 0 <= f < 0x80_0000
  {
    w % 0x80_0000
  }

  /** The sign bit (bit 31). */
  predicate SignBit(w: u32) {
    w >= 0x8000_0000
  }

  /** A binary32 value is finite exactly when its exponent field is not all ones. */
  predicate IsFinite(w: u32) {
    ExponentField(w) != 0xFF
  }

  /** 2^k for any integer k, built by doubling and halving only. */
  function Pow2(k: int): (r: real)
    ensures r > 0.0
    decreases if k < 0 then -k else k
  {
    if k == 0 then 1.0
    else if k > 0 then 2.0 * Pow2(k - 1)
    else Pow2(k + 1) / 2.0
  }

  /** The fraction with the implicit leading one of a normal number. */
  function Significand(w: u32): (s: int)
    ensures ExponentField(w) == 0 ==> 0 <= s < 0x80_0000
    ensures ExponentField(w) != 0 ==> 0x80_0000 <= s < 0x100_0000
  {
    if ExponentField(w) == 0 then FractionField(w) else FractionField(w) + 0x80_0000
  }

  /** Subnormals share the scale of exponent field 1. */
  function Scale(w: u32): (e: int)
    ensures 1 <= e < 0x100
  {
    if ExponentField(w) == 0 then 1 else ExponentField(w)
  }

  /** The absolute value encoded by a finite word: the significand times
      the weight of its last bit, which is f * 2^-149 for a subnormal and
      (2^23 + f) * 2^(e - 150) for a normal number. */
  function Magnitude(w: u32): (m: real)
    requires IsFinite(w)
    ensures m >= 0.0
    ensures m == 0.0 <==> ExponentField(w) == 0 && FractionField(w) == 0
  {
    Weight(Significand(w), Scale(w))
  }

  /** The value of significand `s` at biased exponent `e`: s * 2^(e - 150). */
  function Weight(s: int, e: int): real {
    s as real * Pow2(e - 150)
  }

  /** The Python float `struct.unpack('<f')` produces from the word. */
  function ToNum(w: u32): (r: Num)
    ensures r.Finite? <==> IsFinite(w)
    ensures r.NaN? <==> !IsFinite(w) && FractionField(w) != 0
    ensures r.Finite? ==> (r.r == 0.0 <==> ExponentField(w) == 0 && FractionField(w) == 0)
    ensures r.Finite? && r.r != 0.0 ==> (r.r < 0.0 <==> SignBit(w))
  {
    if !IsFinite(w) then
      if FractionField(w) != 0 then NaN
      else if SignBit(w) then NegInf
      else PosInf
    else if SignBit(w) then Finite(-Magnitude(w))
    else Finite(Magnitude(w))
  }

  // ------------------------------------------------------------ value facts

  lemma Pow2Doubles(k: int)
    ensures Pow2(k + 1) == 2.0 * Pow2(k)
  {
  }

  lemma {:induction false} Pow2Grows(a: int, b: int)
    requires a < b
    ensures Pow2(b) >= 2.0 * Pow2(a)
    decreases b - a
  {
    Pow2Doubles(a);
    if a + 1 < b {
      Pow2Grows(a + 1, b);
      Pow2Doubles(a + 1);
    }
  }

  /** 2^-k is the reciprocal of 2^k. */
  lemma {:induction false} Pow2Inverse(k: nat)
    ensures Pow2(-(k as int)) * Pow2(k) == 1.0
  {
    if k > 0 {
      Pow2Inverse(k - 1);
      assert Pow2(-(k as int)) == Pow2(-((k - 1) as int)) / 2.0;
      assert Pow2(k) == 2.0 * Pow2(k - 1);
    }
  }

  /** Below the sign bit, the word is the exponent field then the fraction. */
  lemma LowBits(w: u32)
    ensures w % 0x8000_0000 == ExponentField(w) * 0x80_0000 + FractionField(w)
  {
  }

  /** Below the sign bit, words compare by exponent field, then by fraction. */
  lemma LowBitsOrder(u: u32, w: u32)
    requires u % 0x8000_0000 < w % 0x8000_0000
    ensures ExponentField(u) <= ExponentField(w)
    ensures ExponentField(u) == ExponentField(w) ==> FractionField(u) < FractionField(w)
  {
    LowBits(u);
    LowBits(w);
  }

  lemma MulLess(a: real, b: real, c: real)
    requires a < b && c > 0.0
    ensures a * c < b * c
  {
  }

  /** A significand below 2^24 at one scale is less than any normal
      significand at a scale at least twice as heavy. */
  lemma ScaledLess(su: real, uu: real, sw: real, uw: real)
    requires 0.0 <= su < 16777216.0 && 8388608.0 <= sw
    requires uu > 0.0 && uw >= 2.0 * uu
    ensures su * uu < sw * uw
  {
    MulLess(su, 16777216.0, uu);
    assert 16777216.0 * uu <= 8388608.0 * uw;
    assert 8388608.0 * uw <= sw * uw;
  }

  /** Below the sign bit, words compare by scale, then by significand. */
  lemma PartsOrder(u: u32, w: u32)
    requires u % 0x8000_0000 < w % 0x8000_0000
    ensures Scale(u) <= Scale(w)
    ensures Scale(u) == Scale(w) ==> Significand(u) < Significand(w)
  {
    LowBitsOrder(u, w);
  }

  /** A significand and scale pair that is smaller in the (scale, significand)
      order, with normal significands wherever the scales differ, weighs less. */
  lemma WeighedLess(su: int, eu: int, sw: int, ew: int)
    requires 0 <= su < 0x100_0000 && 0 <= sw < 0x100_0000
    requires eu <= ew
    requires eu == ew ==> su < sw
    requires eu < ew ==> 0x80_0000 <= sw
    ensures Weight(su, eu) < Weight(sw, ew)
  {
    if eu == ew {
      MulLess(su as real, sw as real, Pow2(eu - 150));
    } else {
      Pow2Grows(eu - 150, ew - 150);
      ScaledLess(su as real, Pow2(eu - 150), sw as real, Pow2(ew - 150));
    }
  }

  /** Among finite words, a larger pattern below the sign bit is a larger magnitude. */
  lemma MagnitudeFollowsLowBits(u: u32, w: u32)
    requires IsFinite(u) && IsFinite(w)
    requires u % 0x8000_0000 < w % 0x8000_0000
    ensures Magnitude(u) < Magnitude(w)
  {
    PartsOrder(u, w);
    WeighedLess(Significand(u), Scale(u), Significand(w), Scale(w));
  }

  /** Words with the same sign bit are ordered like the numbers they denote:
      upwards for non-negative words, downwards for negative ones. */
  lemma ToNumIsMonotone(u: u32, w: u32)
    requires IsFinite(u) && IsFinite(w)
    requires SignBit(u) == SignBit(w)
    requires u < w
    ensures !SignBit(u) ==> ToNum(u).r < ToNum(w).r
    ensures SignBit(u) ==> ToNum(u).r > ToNum(w).r
  {
    MagnitudeFollowsLowBits(u, w);
  }

  /** Setting the sign bit negates the value and keeps the class. */
  lemma SignBitNegates(w: u32)
    requires w < 0x8000_0000
    ensures ToNum(w + 0x8000_0000).Finite? <==> ToNum(w).Finite?
    ensures ToNum(w).Finite? ==> ToNum(w + 0x8000_0000).r == -ToNum(w).r
  {
  }

  /** The values of the words for the coordinates 0, 1, 0.5 and -1. */
  lemma KnownWords()
    ensures ToNum(0) == Finite(0.0)
    ensures ToNum(0x3F80_0000) == Finite(1.0)
    ensures ToNum(0x3F00_0000) == Finite(0.5)
    ensures ToNum(0xBF80_0000) == Finite(-1.0)
  {
    WordOfZero();
    WordOfOne();
    WordOfHalf();
    WordOfMinusOne();
  }

  lemma WordOfZero()
    ensures ToNum(0) == Finite(0.0)
  {
    assert ExponentField(0) == 0 && FractionField(0) == 0;
  }

  lemma WordOfMinusOne()
    ensures ToNum(0xBF80_0000) == Finite(-1.0)
  {
    WordOfOne();
    SignBitNegates(0x3F80_0000);
  }

  lemma WordOfOne()
    ensures ToNum(0x3F80_0000) == Finite(1.0)
  {
    WeightsOfOneAndHalf();
    assert ExponentField(0x3F80_0000) == 127 && FractionField(0x3F80_0000) == 0;
  }

  lemma WordOfHalf()
    ensures ToNum(0x3F00_0000) == Finite(0.5)
  {
    WeightsOfOneAndHalf();
    assert ExponentField(0x3F00_0000) == 126 && FractionField(0x3F00_0000) == 0;
  }

  /** 1 is the significand 2^23 at exponent field 127, and 0.5 the same at 126. */
  lemma WeightsOfOneAndHalf()
    ensures Weight(0x80_0000, 127) == 1.0
    ensures Weight(0x80_0000, 126) == 0.5
  {
    Pow2Of23();
    Pow2Inverse(23);
    assert Pow2(-24) == Pow2(-23) / 2.0;
  }

  lemma Pow2Of23()
    ensures Pow2(23) == 8388608.0
  {
    assert Pow2(1) == 2.0;
    assert Pow2(2) == 4.0;
    assert Pow2(3) == 8.0;
    assert Pow2(4) == 16.0;
    assert Pow2(5) == 32.0;
    assert Pow2(6) == 64.0;
    assert Pow2(7) == 128.0;
    assert Pow2(8) == 256.0;
    assert Pow2(9) == 512.0;
    assert Pow2(10) == 1024.0;
    assert Pow2(11) == 2048.0;
    assert Pow2(12) == 4096.0;
    assert Pow2(13) == 8192.0;
    assert Pow2(14) == 16384.0;
    assert Pow2(15) == 32768.0;
    assert Pow2(16) == 65536.0;
    assert Pow2(17) == 131072.0;
    assert Pow2(18) == 262144.0;
    assert Pow2(19) == 524288.0;
    assert Pow2(20) == 1048576.0;
    assert Pow2(21) == 2097152.0;
    assert Pow2(22) == 4194304.0;
  }
}

=== FILE: geometry.dfy ===
/** The numeric tests of the triangulator: the 1e-10 tolerance, the
    cross product and the collinearity test `_are_collinear`, computed
    over reals. */
module Geometry {
  import opened Values

  /** The absolute tolerance of the duplicate and collinearity tests (1e-10). */
  const TOLERANCE: real := 0.0000000001

  function Abs(r: real): (a: real)
    ensures a >= 0.0 && (a == r || a == -r)
  {
    if r < 0.0 then -r else r
  }

  /** The cross product of (a - o) and (b - o). */
  function Cross(o: Point, a: Point, b: Point): real {
    (a.x - o.x) * (b.y - o.y) - (a.y - o.y) * (b.x - o.x)
  }

  /** Point `k` lies within tolerance of the line through the first two points. */
  predicate OnBaseLine(pts: seq<Point>, k: nat)
    requires 2 <= |pts| && k < |pts|
  {
    Abs(Cross(pts[0], pts[1], pts[k])) <= TOLERANCE
  }

  /** The scan of `_are_collinear` from point `i` on: false at the first
      point whose cross product exceeds the tolerance. */
  function CollinearFrom(pts: seq<Point>, i: nat): (r: bool)
    requires 2 <= |pts| && i <= |pts|
    ensures r <==> forall k :: i <= k < |pts| ==> OnBaseLine(pts, k)
    decreases |pts| - i
  {
    if i == |pts| then true
    else if !OnBaseLine(pts, i) then false
    else CollinearFrom(pts, i + 1)
  }

  /** `_are_collinear`: false for fewer than 3 points; otherwise true
      exactly when every point from the third on lies within tolerance of
      the line through the first two. Never fails. */
  function AreCollinear(pts: seq<Point>): (r: bool)
    ensures |pts| < 3 ==> !r
    ensures r <==> |pts| >= 3 && forall k :: 2 <= k < |pts| ==> OnBaseLine(pts, k)
  {
    if |pts| < 3 then false else CollinearFrom(pts, 2)
  }

  /** The point `o + t * (a - o)` on the line through `o` and `a`. */
  function Along(o: Point, a: Point, t: real): Point {
    Point(o.x + t * (a.x - o.x), o.y + t * (a.y - o.y))
  }

  /** Points that lie exactly on the line through the first two are
      reported collinear, whatever their spacing and order. */
  lemma PointsOnALineAreCollinear(pts: seq<Point>, t: seq<real>)
    requires |pts| >= 3 && |t| == |pts|
    requires forall k :: 2 <= k < |pts| ==> pts[k] == Along(pts[0], pts[1], t[k])
    ensures AreCollinear(pts)
  {
    forall k | 2 <= k < |pts| ensures OnBaseLine(pts, k) {
      var dx, dy := pts[1].x - pts[0].x, pts[1].y - pts[0].y;
      assert Cross(pts[0], pts[1], pts[k]) == dx * (t[k] * dy) - dy * (t[k] * dx);
      assert dx * (t[k] * dy) == dy * (t[k] * dx);
    }
  }
}

=== FILE: legacy_service.dfy ===
/** The earlier version of the service: the same three routes over a
    module-level dictionary from identifier to the raw request bytes, with
    the stub `triangulate`. Every `ValueError` is a 400 and every other
    exception a 500; error bodies carry only a message, so a reply is
    described by its status. */
module LegacyService {
  import opened Outcomes
  import opened Values
  import opened LittleEndian
  import BinaryFormat
  import Validation
  import StubTriangulator
  import Service
  import PointSetManager

  /** A binary 200 body, a 201 carrying the new `pointSetId`, or an error status. */
  datatype Reply = Binary(data: Bytes) | Created(id: string) | Failed(status: int)

  /** The route's reply together with `pointset_store` afterwards. */
  datatype Posted = Posted(reply: Reply, store: map<string, Bytes>)

  /** The identifier check of both GET routes: non-empty and not starting
      with `../`. */
  function IsValidId(id: string): (ok: bool)
    ensures ok <==> |id| > 0 && !(|id| >= 3 && id[0] == '.' && id[1] == '.' && id[2] == '/')
  {
    DotDotSlashPrefix(id);
    |id| > 0 && !StartsWith(id, "../")
  }

  /** `id.startswith("../")`, character by character. */
  lemma DotDotSlashPrefix(id: string)
    ensures StartsWith(id, "../") <==> |id| >= 3 && id[0] == '.' && id[1] == '.' && id[2] == '/'
  {
    if |id| >= 3 {
      assert id[..3][0] == id[0] && id[..3][1] == id[1] && id[..3][2] == id[2];
      if id[0] == '.' && id[1] == '.' && id[2] == '/' {
        assert id[..3] == "../";
      }
    }
  }

  /** The identifier check is weaker than the later service's: every id
      that one accepts passes, and `a/b` passes here but not there. */
  lemma IdCheckIsWeaker(id: string)
    ensures Service.IsSafeId(id) ==> IsValidId(id)
    ensures IsValidId("a/b") && !Service.IsSafeId("a/b")
  {
    assert "a/b"[1] == '/';
  }

  /** The status the handler's two `except` clauses give an exception. */
  function Caught(e: Exception): (status: int)
    ensures status == 400 <==> e == ValueError
    ensures status != 400 ==> status == 500
  {
    if e == ValueError then 400 else 500
  }

  /** `GET /triangulation/{id}`: decode the stored bytes, run the stub
      `triangulate`, encode points and triangles. */
  function GetTriangulation(id: string, store: map<string, Bytes>): (r: Reply)
    ensures !IsValidId(id) ==> r == Failed(400)
    ensures IsValidId(id) && id !in store ==> r == Failed(404)
    ensures IsValidId(id) && id in store && BinaryFormat.DecodePointSet(store[id]).Err? ==> r == Failed(400)
    ensures r.Binary? <==>
      IsValidId(id) && id in store && BinaryFormat.DecodePointSet(store[id]).Ok? &&
      |BinaryFormat.DecodePointSet(store[id]).value| >= 3
    ensures r.Binary? ==>
      BinaryFormat.DecodeTriangles(r.data) == Ok(BinaryFormat.Mesh(BinaryFormat.DecodePointSet(store[id]).value, []))
    ensures r.Failed? ==> r.status == 400 || r.status == 404
    ensures IsValidId(id) && id in store && !r.Binary? ==> r == Failed(400)
    ensures r.Binary? ==>
      r.data == BinaryFormat.EncodeTriangles(BinaryFormat.DecodePointSet(store[id]).value, []).value
  {
    if !IsValidId(id) then Failed(400)
    else if id !in store then Failed(404)
    else match BinaryFormat.DecodePointSet(store[id])
      case Err(e) => Failed(Caught(BinaryFormat.ExceptionOf(e)))
      case Ok(ps) =>
        var input := BinaryFormat.ToPointsValue(ps);
        assert |ps| >= 3 ==> Validation.CheckPoints(input).Ok?;
        match StubTriangulator.Triangulate(input)
        case Err(f) => Failed(Caught(Validation.ExceptionOf(f)))
        case Ok(ts) =>
          BinaryFormat.DecodeEncodeTriangles(ps, ts);
          match BinaryFormat.EncodeTriangles(ps, IndexLists(ts))
          case Ok(b) => Binary(b)
          case Err(e) => Failed(Caught(BinaryFormat.ExceptionOf(e)))
  }

  /** `POST /pointset`: a body that decodes is stored as sent under the
      fresh identifier. */
  function StorePointSet(body: Bytes, store: map<string, Bytes>, freshId: string): (r: Posted)
    ensures |body| == 0 ==> r == Posted(Failed(400), store)
    ensures r.reply.Created? <==> |body| > 0 && BinaryFormat.DecodePointSet(body).Ok?
    ensures r.reply.Created? ==> r.reply.id == freshId && r.store == store[freshId := body]
    ensures !r.reply.Created? ==> r.reply == Failed(400) && r.store == store
  {
    if |body| == 0 then Posted(Failed(400), store)
    else match BinaryFormat.DecodePointSet(body)
      case Err(e) => Posted(Failed(Caught(BinaryFormat.ExceptionOf(e))), store)
      case Ok(_) => Posted(Created(freshId), store[freshId := body])
  }

  /** `GET /pointset/{id}`: the stored bytes themselves. */
  function GetPointSet(id: string, store: map<string, Bytes>): (r: Reply)
    ensures !IsValidId(id) ==> r == Failed(400)
    ensures r == Failed(404) <==> IsValidId(id) && id !in store
    ensures r.Binary? <==> IsValidId(id) && id in store
    ensures r.Binary? ==> r.data == store[id]
  {
    if !IsValidId(id) then Failed(400)
    else if id !in store then Failed(404)
    else Binary(store[id])
  }

  // -------------------------------------------------------------- round trips

  /** A posted body is served back byte for byte, trailing bytes included. */
  lemma PostThenGetPointSet(body: Bytes, store: map<string, Bytes>, freshId: string)
    requires Service.IsUuidText(freshId)
    requires StorePointSet(body, store, freshId).reply.Created?
    ensures GetPointSet(freshId, StorePointSet(body, store, freshId).store) == Binary(body)
  {
    Service.UuidIsSafe(freshId);
    IdCheckIsWeaker(freshId);
  }

  /** After a post, the triangulation route answers 200 with the posted
      points and no triangle when there are at least 3 points, and 400
      otherwise. */
  lemma PostThenGetTriangulation(body: Bytes, store: map<string, Bytes>, freshId: string)
    requires Service.IsUuidText(freshId)
    requires StorePointSet(body, store, freshId).reply.Created?
    ensures var ps := BinaryFormat.DecodePointSet(body).value;
      var r := GetTriangulation(freshId, StorePointSet(body, store, freshId).store);
      && (r.Binary? <==> |ps| >= 3)
      && (r.Binary? ==> BinaryFormat.DecodeTriangles(r.data) == Ok(BinaryFormat.Mesh(ps, [])))
      && (!r.Binary? ==> r == Failed(400))
  {
    Service.UuidIsSafe(freshId);
    IdCheckIsWeaker(freshId);
  }

  /** For the same accepted body, the two versions' `GET /pointset/{id}`
      agree exactly when the body has no bytes past its declared records. */
  lemma PointSetRoutesAgreeIffNoTrailingBytes(body: Bytes, freshId: string)
    requires Service.IsUuidText(freshId)
    requires StorePointSet(body, map[], freshId).reply.Created?
    requires |body| <= Service.MAX_PAYLOAD
    ensures var legacy := GetPointSet(freshId, StorePointSet(body, map[], freshId).store);
      var current := Service.StorePointSet(body, map[], freshId).storage;
      var later := Service.GetPointSet(freshId, PointSetManager.GetPointSet(current, freshId));
      later.Binary? && legacy.Binary? &&
      (later.data == legacy.data <==> |body| == 4 + 8 * ReadU32(body, 0))
  {
    PostThenGetPointSet(body, map[], freshId);
    Service.PostThenGetPointSet(body, map[], freshId);
    var n := 4 + 8 * ReadU32(body, 0);
    if |body| != n {
      assert |body[..n]| != |body|;
    }
  }
}

=== FILE: little_endian.dfy ===
/** Unsigned 32-bit little-endian fields: the `'<L'` format of Python's
    `struct` module, and the `'<f'` format seen as moving the 32 bits of a
    binary32 value. Bytes and words are integers in their ranges. */
module LittleEndian {

  type byte = x: int | 0 <= x < 0x100

  type Bytes = seq<byte>

  /** An unsigned 32-bit word: a count, an index, or the bits of a binary32 float. */
  type u32 = x: int | 0 <= x < U32_LIMIT

  /** `struct.pack('<L', n)` raises `struct.error` unless `0 <= n < U32_LIMIT`. */
  const U32_LIMIT: int := 0x1_0000_0000

  /** The four bytes of `w`, least significant first. */
  function U32Bytes(w: u32): (r: Bytes)
    ensures |r| == 4
  {
    [w % 0x100, (w / 0x100) % 0x100, (w / 0x1_0000) % 0x100, w / 0x100_0000]
  }

  /** The word stored little-endian at `b[off..off + 4]`. */
  function ReadU32(b: Bytes, off: nat): u32
    requires off + 4 <= |b|
  {
    b[off] as int + 0x100 * (b[off + 1] as int) + 0x1_0000 * (b[off + 2] as int)
      + 0x100_0000 * (b[off + 3] as int)
  }

  /** Quotient and remainder by 256 are determined by any matching decomposition. */
  lemma DivMod256(n: int, q: int, r: int)
    requires n == 0x100 * q + r && 0 <= r < 0x100
    ensures n / 0x100 == q && n % 0x100 == r
  {
  }

  /** Writing a word and reading it back gives the word. */
  lemma ReadU32OfU32Bytes(w: u32)
    ensures ReadU32(U32Bytes(w), 0) == w
  {
    var q1 := w / 0x100;
    var q2 := q1 / 0x100;
    assert w / 0x1_0000 == q2;
    assert w / 0x100_0000 == q2 / 0x100;
  }

  /** Reading a field and writing it back gives the same four bytes. */
  lemma U32BytesOfRead(b: Bytes, off: nat)
    requires off + 4 <= |b|
    ensures U32Bytes(ReadU32(b, off)) == b[off..off + 4]
  {
    var n := ReadU32(b, off);
    var q1 := b[off + 1] as int + 0x100 * (b[off + 2] as int) + 0x1_0000 * (b[off + 3] as int);
    var q2 := b[off + 2] as int + 0x100 * (b[off + 3] as int);
    DivMod256(n, q1, b[off]);
    DivMod256(q1, q2, b[off + 1]);
    DivMod256(q2, b[off + 3], b[off + 2]);
    assert n / 0x1_0000 == q2;
    assert n / 0x100_0000 == b[off + 3];
  }

  /** A field inside the left or the right part of a concatenation is read
      from that part. */
  lemma ReadU32Append(a: Bytes, b: Bytes, off: nat)
    ensures off + 4 <= |a| ==> ReadU32(a + b, off) == ReadU32(a, off)
    ensures off + 4 <= |b| ==> ReadU32(a + b, |a| + off) == ReadU32(b, off)
  {
  }

  /** The parts of `a + c + r` for a 4-byte middle field `c`. */
  lemma Concat3(a: Bytes, c: Bytes, r: Bytes)
    requires |c| == 4
    ensures (a + c + r)[..|a|] == a
    ensures (a + c + r)[|a| + 4..|a| + 4 + |r|] == r
    ensures ReadU32(a + c + r, |a|) == ReadU32(c, 0)
    ensures 4 <= |a| ==> ReadU32(a + c + r, 0) == ReadU32(a, 0)
  {
  }
}

=== FILE: outcomes.dfy ===
/** Result and exception vocabulary shared by every component.

    The Python modules signal failures with exceptions. Each component
    here returns a `Result` whose error side names what the Python code raises,
    and the request handlers see the exception CLASS through `Exception`,
    because their `except` clauses dispatch on the class alone. */
module Outcomes {

  /** A value or the reason it could not be produced. */
  datatype Result<+T, +E> = Ok(value: T) | Err(error: E)

  /** The Python exception classes the handlers tell apart.
      `StructError` is `struct.error`, which is not a `ValueError`;
      `OtherException` is any further class (a `RuntimeError`, say). */
  datatype Exception =
    | KeyError
    | ValueError
    | TypeError
    | ConnectionError
    | TimeoutError
    | StructError
    | OtherException

  /** What a call into a collaborator did: returned a value, or raised. */
  datatype Outcome<+T> = Returned(value: T) | Raised(exception: Exception)
}

=== FILE: pointset_manager.dfy ===
/** `PointSetManager`: an identifier-to-point-list store. The identifier
    of a new entry (a random UUID in `store_pointset`) is supplied by the
    caller. */
module PointSetManager {
  import opened Outcomes

  /** `store_pointset`: records `points` under `id`. */
  function StorePointSet<T>(storage: map<string, T>, id: string, points: T): (r: map<string, T>)
    ensures r.Keys == storage.Keys + {id}
    ensures id in r && r[id] == points
    ensures forall k :: k in storage && k != id ==> r[k] == storage[k]
  {
    storage[id := points]
  }

  /** `get_pointset`: the stored points, or `KeyError` for an unknown id. */
  function GetPointSet<T>(storage: map<string, T>, id: string): (r: Outcome<T>)
    ensures r.Raised? <==> id !in storage
    ensures r.Raised? ==> r.exception == KeyError
    ensures r.Returned? ==> r.value == storage[id]
  {
    if id in storage then Returned(storage[id]) else Raised(KeyError)
  }

  /** Reading back a stored entry gives it; other entries read as before;
      a fresh identifier adds exactly one entry. */
  lemma GetAfterStore<T>(storage: map<string, T>, id: string, points: T, other: string)
    ensures GetPointSet(StorePointSet(storage, id, points), id) == Returned(points)
    ensures other != id ==> GetPointSet(StorePointSet(storage, id, points), other) == GetPointSet(storage, other)
    ensures id !in storage ==> |StorePointSet(storage, id, points)| == |storage| + 1
  {
  }
}

=== FILE: service.dfy ===
/** The three routes of the triangulation service: `POST /pointset`,
    `GET /pointset/{id}` and `GET /triangulation/{id}`. A route is a
    function from the request (and what the point-set manager answers)
    to the response; the manager's store is passed in and out. */
module Service {
  import opened Outcomes
  import opened Values
  import opened LittleEndian
  import BinaryFormat
  import Validation
  import Triangulator
  import PointSetManager

  /** Request bodies above 50 MiB are refused. */
  const MAX_PAYLOAD: nat := 50 * 1024 * 1024

  /** The `code` field of an error response. */
  datatype Code =
    | InvalidId | NotFound | TriangulationFailed | TriangulationError
    | Timeout | ServiceUnavailable | InternalError
    | EmptyBody | PayloadTooLarge | InvalidFormat
  {
    function Name(): string {
      match this
      case InvalidId => "INVALID_ID"
      case NotFound => "NOT_FOUND"
      case TriangulationFailed => "TRIANGULATION_FAILED"
      case TriangulationError => "TRIANGULATION_ERROR"
      case Timeout => "TIMEOUT"
      case ServiceUnavailable => "SERVICE_UNAVAILABLE"
      case InternalError => "INTERNAL_ERROR"
      case EmptyBody => "EMPTY_BODY"
      case PayloadTooLarge => "PAYLOAD_TOO_LARGE"
      case InvalidFormat => "INVALID_FORMAT"
    }

    /** The HTTP status each code is sent with. */
    function Status(): int {
      match this
      case InvalidId => 400
      case NotFound => 404
      case TriangulationFailed => 400
      case TriangulationError => 500
      case Timeout => 504
      case ServiceUnavailable => 503
      case InternalError => 500
      case EmptyBody => 400
      case PayloadTooLarge => 413
      case InvalidFormat => 400
    }
  }

  /** Clients can tell every error apart by its `code` string, even two
      errors sent with the same status. */
  lemma CodeNamesAreDistinct(c: Code, d: Code)
    ensures c.Name() == d.Name() <==> c == d
  {
  }

  /** A binary 200 body, a 201 carrying the new `pointSetId`, or a JSON error. */
  datatype Response = Binary(data: Bytes) | Created(id: string) | Error(code: Code)
  {
    function Status(): int {
      match this
      case Binary(_) => 200
      case Created(_) => 201
      case Error(c) => c.Status()
    }
  }

  /** The route's answer together with the manager's store afterwards. */
  datatype Posted = Posted(response: Response, storage: map<string, seq<BinaryFormat.Point32>>)

  // --------------------------------------------------------------- identifiers

  /** `_is_safe_id`. The two prefix tests are subsumed by the separator
      test: an identifier is safe exactly when it is non-empty and has no
      `/` and no `\`. */
  function IsSafeId(id: string): (r: bool)
    ensures r <==> |id| > 0 && '/' !in id && '\\' !in id
  {
    if |id| == 0 then false
    else if StartsWith(id, "../") || StartsWith(id, "..\\") then
      assert id[2] == "../"[2] || id[2] == "..\\"[2];
      false
    else !('/' in id || '\\' in id)
  }

  /** The text of a `uuid4()`: 36 lower-case hex digits and dashes. */
  predicate IsUuidText(id: string) {
    |id| == 36 && forall k :: 0 <= k < |id| ==> id[k] in "0123456789abcdef-"
  }

  /** Every identifier the manager hands out passes the route's id check. */
  lemma UuidIsSafe(id: string)
    requires IsUuidText(id)
    ensures IsSafeId(id)
  {
    forall k | 0 <= k < |id| ensures id[k] != '/' && id[k] != '\\' {
      assert id[k] in "0123456789abcdef-";
    }
  }

  // -------------------------------------------------------------- triangulate

  /** `triangulator.triangulate` on the stored points, its failures raised
      as the exceptions `triangulator.py` raises for them. */
  function RunTriangulate(ps: seq<BinaryFormat.Point32>): (r: Outcome<seq<seq<int>>>)
    ensures r.Returned? <==> Triangulator.IsValidInput(BinaryFormat.ToPointsValue(ps))
    ensures r.Raised? ==> r.exception == ValueError || r.exception == TypeError
  {
    match Triangulator.Triangulate(BinaryFormat.ToPointsValue(ps))
    case Ok(ts) => Returned(IndexLists(ts))
    case Err(f) => Raised(Validation.ExceptionOf(f))
  }

  /** Points that came out of the decoder carry no NaN and no infinity, so
      `triangulate` can only refuse them for their number or for
      duplicates. */
  lemma DecodedPointsFailOnlyOnCountOrDuplicates(ps: seq<BinaryFormat.Point32>)
    requires BinaryFormat.AllFinite(ps)
    ensures Triangulator.Triangulate(BinaryFormat.ToPointsValue(ps)).Err? ==>
      Triangulator.Triangulate(BinaryFormat.ToPointsValue(ps)).error in
        {Validation.EmptyPointSet, Validation.InsufficientPoints, Validation.DuplicatePoints}
    ensures |ps| >= 3 ==> Validation.CheckPoints(BinaryFormat.ToPointsValue(ps)).Ok?
  {
    var v := BinaryFormat.ToPointsValue(ps);
    assert forall j :: 0 <= j < |v.items| ==> Validation.IsFinitePair(v.items[j]) by {
      forall j | 0 <= j < |v.items| ensures Validation.IsFinitePair(v.items[j]) {
        assert BinaryFormat.IsFinitePoint(ps[j]);
      }
    }
  }

  // ------------------------------------------------------------------- routes

  /** What the outer handler of `get_triangulation` makes of an exception
      that escapes the inner blocks. */
  function Escaped(e: Exception): (c: Code)
    ensures c == Timeout <==> e == TimeoutError
    ensures c == ServiceUnavailable <==> e == ConnectionError
    ensures c != Timeout && c != ServiceUnavailable ==> c == InternalError
  {
    match e
    case TimeoutError => Timeout
    case ConnectionError => ServiceUnavailable
    case _ => InternalError
  }

  /** `GET /triangulation/{id}` with the manager's answer `lookup` and the
      `triangulate` in use (the real one is `RunTriangulate`). A `KeyError`
      from the lookup is a 404; any other lookup exception reaches the outer
      handler. Every exception of `triangulate` is caught next to the call.
      An exception of the encoder reaches the outer handler. */
  function GetTriangulation(id: string, lookup: Outcome<seq<BinaryFormat.Point32>>,
                            triangulate: seq<BinaryFormat.Point32> -> Outcome<seq<seq<int>>>): (r: Response)
    ensures !IsSafeId(id) ==> r == Error(InvalidId)
    ensures r == Error(NotFound) <==> IsSafeId(id) && lookup == Raised(KeyError)
    ensures r.Status() == 504 <==> IsSafeId(id) && lookup == Raised(TimeoutError)
    ensures r.Status() == 503 <==> IsSafeId(id) && lookup == Raised(ConnectionError)
    ensures r == Error(TriangulationFailed) <==>
      IsSafeId(id) && lookup.Returned? &&
      triangulate(lookup.value).Raised? && triangulate(lookup.value).exception in {ValueError, TypeError}
    ensures r == Error(TriangulationError) <==>
      IsSafeId(id) && lookup.Returned? &&
      triangulate(lookup.value).Raised? && triangulate(lookup.value).exception !in {ValueError, TypeError}
    ensures r.Binary? <==>
      IsSafeId(id) && lookup.Returned? && triangulate(lookup.value).Returned? &&
      BinaryFormat.EncodeTriangles(lookup.value, triangulate(lookup.value).value).Ok?
    ensures r.Binary? ==>
      r.data == BinaryFormat.EncodeTriangles(lookup.value, triangulate(lookup.value).value).value
    ensures r == Error(InternalError) <==>
      IsSafeId(id) &&
      ((lookup.Raised? && lookup.exception !in {KeyError, TimeoutError, ConnectionError}) ||
       (lookup.Returned? && triangulate(lookup.value).Returned? &&
        BinaryFormat.EncodeTriangles(lookup.value, triangulate(lookup.value).value).Err?))
  {
    if !IsSafeId(id) then Error(InvalidId)
    else match lookup
      case Raised(e) => if e == KeyError then Error(NotFound) else Error(Escaped(e))
      case Returned(ps) =>
        match triangulate(ps)
        case Raised(e) =>
          if e == ValueError || e == TypeError then Error(TriangulationFailed)
          else Error(TriangulationError)
        case Returned(ts) =>
          match BinaryFormat.EncodeTriangles(ps, ts)
          case Ok(b) => Binary(b)
          case Err(e) => Error(Escaped(BinaryFormat.ExceptionOf(e)))
  }

  /** With the real `triangulate`, a stored list of finite points answers
      200 exactly when it is a valid input, and the body then decodes to
      the stored points and their triangulation; otherwise the answer is
      400 TRIANGULATION_FAILED. */
  lemma TriangulationBodyDecodes(id: string, ps: seq<BinaryFormat.Point32>)
    requires IsSafeId(id)
    requires |ps| < U32_LIMIT && BinaryFormat.AllFinite(ps)
    ensures var r := GetTriangulation(id, Returned(ps), RunTriangulate);
      && (r.Binary? <==> Triangulator.IsValidInput(BinaryFormat.ToPointsValue(ps)))
      && (r.Binary? ==>
            BinaryFormat.DecodeTriangles(r.data) ==
            Ok(BinaryFormat.Mesh(ps, Triangulator.Triangulate(BinaryFormat.ToPointsValue(ps)).value)))
      && (!r.Binary? ==> r == Error(TriangulationFailed))
  {
    var t := Triangulator.Triangulate(BinaryFormat.ToPointsValue(ps));
    if t.Ok? {
      assert |Triangulator.Validate(BinaryFormat.ToPointsValue(ps)).value| == |ps|;
      BinaryFormat.DecodeEncodeTriangles(ps, t.value);
    }
  }

  /** `POST /pointset` with the identifier the manager will draw. */
  function StorePointSet(body: Bytes, storage: map<string, seq<BinaryFormat.Point32>>, freshId: string): (r: Posted)
    ensures |body| == 0 ==> r == Posted(Error(EmptyBody), storage)
    ensures |body| > MAX_PAYLOAD ==> r == Posted(Error(PayloadTooLarge), storage)
    ensures r.response == Error(InvalidFormat) <==>
      0 < |body| <= MAX_PAYLOAD && BinaryFormat.DecodePointSet(body).Err?
    ensures r.response.Created? <==> 0 < |body| <= MAX_PAYLOAD && BinaryFormat.DecodePointSet(body).Ok?
    ensures r.response.Created? ==>
      && r.response.id == freshId
      && r.storage == PointSetManager.StorePointSet(storage, freshId, BinaryFormat.DecodePointSet(body).value)
    ensures !r.response.Created? ==> r.storage == storage
  {
    if |body| == 0 then Posted(Error(EmptyBody), storage)
    else if |body| > MAX_PAYLOAD then Posted(Error(PayloadTooLarge), storage)
    else match BinaryFormat.DecodePointSet(body)
      case Err(_) => Posted(Error(InvalidFormat), storage)
      case Ok(ps) => Posted(Created(freshId), PointSetManager.StorePointSet(storage, freshId, ps))
  }

  /** `GET /pointset/{id}` with the manager's answer `lookup`. Every
      exception other than `KeyError`, the encoder's included, becomes
      500 INTERNAL_ERROR. */
  function GetPointSet(id: string, lookup: Outcome<seq<BinaryFormat.Point32>>): (r: Response)
    ensures !IsSafeId(id) ==> r == Error(InvalidId)
    ensures r == Error(NotFound) <==> IsSafeId(id) && lookup == Raised(KeyError)
    ensures r.Binary? <==> IsSafeId(id) && lookup.Returned? && |lookup.value| < U32_LIMIT
    ensures r == Error(InternalError) <==>
      IsSafeId(id) &&
      ((lookup.Raised? && lookup.exception != KeyError) ||
       (lookup.Returned? && |lookup.value| >= U32_LIMIT))
    ensures r.Binary? ==> r.data == BinaryFormat.EncodePointSet(lookup.value).value
    ensures r.Binary? ==>
      && |r.data| == 4 + 8 * |lookup.value|
      && ReadU32(r.data, 0) == |lookup.value|
      && forall i :: 0 <= i < |lookup.value| ==> BinaryFormat.PointAt(r.data, 4 + 8 * i) == lookup.value[i]
  {
    if !IsSafeId(id) then Error(InvalidId)
    else match lookup
      case Raised(e) => if e == KeyError then Error(NotFound) else Error(InternalError)
      case Returned(ps) =>
        match BinaryFormat.EncodePointSet(ps)
        case Ok(b) => Binary(b)
        case Err(_) => Error(InternalError)
  }

  // -------------------------------------------------------------- round trips

  /** The body of `GET /pointset/{id}` for a stored list of finite points
      decodes to that list. */
  lemma PointSetBodyDecodes(id: string, ps: seq<BinaryFormat.Point32>)
    requires IsSafeId(id)
    requires |ps| < U32_LIMIT && BinaryFormat.AllFinite(ps)
    ensures GetPointSet(id, Returned(ps)).Binary?
    ensures BinaryFormat.DecodePointSet(GetPointSet(id, Returned(ps)).data) == Ok(ps)
  {
    BinaryFormat.DecodeEncodePointSet(ps);
  }

  /** A point set accepted by `POST /pointset` is served back by
      `GET /pointset/{id}` as the body's count and records, without any
      trailing bytes the request carried. */
  lemma PostThenGetPointSet(body: Bytes, storage: map<string, seq<BinaryFormat.Point32>>, freshId: string)
    requires IsUuidText(freshId)
    requires StorePointSet(body, storage, freshId).response.Created?
    ensures |body| >= 4 && 4 + 8 * ReadU32(body, 0) <= |body|
    ensures var after := StorePointSet(body, storage, freshId).storage;
      GetPointSet(freshId, PointSetManager.GetPointSet(after, freshId)) ==
        Binary(body[..4 + 8 * ReadU32(body, 0)])
  {
    UuidIsSafe(freshId);
    BinaryFormat.EncodeDecodePointSet(body);
  }

  /** After `POST /pointset`, `GET /triangulation/{id}` answers 200 exactly
      when the points are valid for `triangulate` (at least 3, none
      duplicated), with a body that decodes to the posted points and their
      triangulation; otherwise 400 TRIANGULATION_FAILED. */
  lemma PostThenGetTriangulation(body: Bytes, storage: map<string, seq<BinaryFormat.Point32>>, freshId: string)
    requires IsUuidText(freshId)
    requires StorePointSet(body, storage, freshId).response.Created?
    ensures var ps := BinaryFormat.DecodePointSet(body).value;
      var after := StorePointSet(body, storage, freshId).storage;
      var r := GetTriangulation(freshId, PointSetManager.GetPointSet(after, freshId), RunTriangulate);
      && (r.Binary? <==> Triangulator.IsValidInput(BinaryFormat.ToPointsValue(ps)))
      && (r.Binary? ==>
            BinaryFormat.DecodeTriangles(r.data) ==
            Ok(BinaryFormat.Mesh(ps, Triangulator.Triangulate(BinaryFormat.ToPointsValue(ps)).value)))
      && (!r.Binary? ==> r == Error(TriangulationFailed))
  {
    UuidIsSafe(freshId);
    var ps := BinaryFormat.DecodePointSet(body).value;
    TriangulationBodyDecodes(freshId, ps);
  }
}

=== FILE: stub_triangulator.dfy ===
/** `triangulate` of the earlier stub module: the same list-level and
    per-point checks as the fan triangulator, no duplicate check, and an
    empty triangle list for every input that passes. */
module StubTriangulator {
  import opened Outcomes
  import opened Values
  import opened Geometry
  import opened Validation
  import Triangulator

  /** The stub `triangulate`. It evaluates `_are_collinear` but returns the
      empty list on both outcomes. */
  function Triangulate(input: PointsValue): (r: Result<seq<Triangle>, Failure>)
    ensures r.Ok? <==> CheckPoints(input).Ok?
    ensures r.Err? ==> CheckPoints(input) == Err(r.error)
    ensures r.Ok? ==> r.value == []
  {
    match CheckPoints(input)
    case Err(f) => Err(f)
    case Ok(pts) => if AreCollinear(pts) then Ok([]) else Ok([])
  }

  /** The stub fails exactly where the fan triangulator fails, except that
      it never reports duplicate points: coincident points pass. */
  lemma StubDiffersOnlyOnDuplicates(input: PointsValue)
    ensures Triangulator.Triangulate(input).Err? && Triangulator.Triangulate(input).error != DuplicatePoints
      ==> Triangulate(input) == Err(Triangulator.Triangulate(input).error)
    ensures Triangulator.Triangulate(input) == Err(DuplicatePoints) ==> Triangulate(input) == Ok([])
    ensures Triangulator.Triangulate(input).Ok? ==> Triangulate(input) == Ok([])
  {
  }

  /** Three copies of one finite point: the stub returns no triangle, the
      fan triangulator reports duplicates. */
  lemma CoincidentPointsPassTheStub(x: real, y: real)
    ensures var p := Pair(Number(Finite(x)), Number(Finite(y)));
      && Triangulate(List([p, p, p])) == Ok([])
      && Triangulator.Triangulate(List([p, p, p])) == Err(DuplicatePoints)
  {
    var p := Pair(Number(Finite(x)), Number(Finite(y)));
    var pts := CheckPoints(List([p, p, p])).value;
    assert Triangulator.Close(pts[0], pts[1]);
  }
}

=== FILE: triangulator.dfy ===
/** `triangulate` of the fan triangulator: the shared validation, a
    pairwise duplicate check, the collinearity test, and a fan of
    triangles around the (x, y)-smallest point. */
module Triangulator {
  import opened Outcomes
  import opened Values
  import opened Geometry
  import opened Validation

  // ------------------------------------------------------------ duplicates

  /** Two points closer than the tolerance on both axes. */
  predicate Close(p: Point, q: Point) {
    Abs(p.x - q.x) < TOLERANCE && Abs(p.y - q.y) < TOLERANCE
  }

  /** The inner duplicate loop: some point from index `j` on is close to point `i`. */
  function CloseToLater(pts: seq<Point>, i: nat, j: nat): (r: bool)
    requires i < j <= |pts|
    ensures r <==> exists k :: j <= k < |pts| && Close(pts[i], pts[k])
    decreases |pts| - j
  {
    if j == |pts| then false
    else Close(pts[i], pts[j]) || CloseToLater(pts, i, j + 1)
  }

  /** The outer duplicate loop from index `i` on. */
  function DuplicateFrom(pts: seq<Point>, i: nat): (r: bool)
    requires i <= |pts|
    ensures r <==> exists a, b :: i <= a < b < |pts| && Close(pts[a], pts[b])
    decreases |pts| - i
  {
    if i == |pts| then false
    else if i + 1 < |pts| && CloseToLater(pts, i, i + 1) then true
    else DuplicateFrom(pts, i + 1)
  }

  /** Some two distinct positions hold points within tolerance of each other. */
  function HasDuplicates(pts: seq<Point>): (r: bool)
    ensures r <==> exists a, b :: 0 <= a < b < |pts| && Close(pts[a], pts[b])
  {
    DuplicateFrom(pts, 0)
  }

  // -------------------------------------------------------------- validation

  /** The full validation chain: steps 1 to 5, then the duplicate check over
      the validated points. */
  function Validate(input: PointsValue): (r: Result<seq<Point>, Failure>)
    ensures CheckPoints(input).Err? ==> r == CheckPoints(input)
    ensures r == Err(DuplicatePoints) <==> CheckPoints(input).Ok? && HasDuplicates(CheckPoints(input).value)
    ensures r.Ok? <==> CheckPoints(input).Ok? && !HasDuplicates(CheckPoints(input).value)
    ensures r.Ok? ==> r.value == CheckPoints(input).value
  {
    match CheckPoints(input)
    case Err(f) => Err(f)
    case Ok(pts) => if HasDuplicates(pts) then Err(DuplicatePoints) else Ok(pts)
  }

  /** The inputs `triangulate` accepts, stated without the check order: a
      list of at least 3 pairs of finite numbers, no two within tolerance. */
  predicate IsValidInput(input: PointsValue) {
    && input.List?
    && |input.items| >= 3
    && (forall j :: 0 <= j < |input.items| ==> IsFinitePair(input.items[j]))
    && (forall a, b :: 0 <= a < b < |input.items| ==>
          !Close(PointOf(input.items[a]), PointOf(input.items[b])))
  }

  /** Validation succeeds exactly on valid inputs, and yields their points. */
  lemma ValidateAcceptsExactlyValidInputs(input: PointsValue)
    ensures Validate(input).Ok? <==> IsValidInput(input)
    ensures Validate(input).Ok? ==> forall j :: 0 <= j < |input.items| ==>
      Validate(input).value[j] == PointOf(input.items[j])
  {
    if CheckPoints(input).Ok? {
      var pts := CheckPoints(input).value;
      assert forall a, b :: 0 <= a < b < |pts| ==>
        (Close(pts[a], pts[b]) <==> Close(PointOf(input.items[a]), PointOf(input.items[b])));
    }
  }

  // ----------------------------------------------------------------- sorting

  /** Python's tuple order on (x, y). */
  predicate KeyLess(p: Point, q: Point) {
    p.x < q.x || (p.x == q.x && p.y < q.y)
  }

  /** Index `i` comes before index `j` in the stable sort of the indices by
      (x, y): a smaller key, or an equal key and a smaller index. */
  predicate Before(pts: seq<Point>, i: nat, j: nat)
    requires i < |pts| && j < |pts|
  {
    KeyLess(pts[i], pts[j]) || (pts[i] == pts[j] && i < j)
  }

  lemma BeforeTotal(pts: seq<Point>, i: nat, j: nat)
    requires i < |pts| && j < |pts| && i != j
    ensures Before(pts, i, j) || Before(pts, j, i)
  {
  }

  lemma BeforeTransitive(pts: seq<Point>, i: nat, j: nat, k: nat)
    requires i < |pts| && j < |pts| && k < |pts|
    requires Before(pts, i, j) && Before(pts, j, k)
    ensures Before(pts, i, k)
  {
  }

  predicate InRange(pts: seq<Point>, s: seq<nat>) {
    forall a :: 0 <= a < |s| ==> s[a] < |pts|
  }

  /** Every earlier element comes before every later one. */
  predicate SortedBefore(pts: seq<Point>, s: seq<nat>)
    requires InRange(pts, s)
  {
    forall a, b :: 0 <= a < b < |s| ==> Before(pts, s[a], s[b])
  }

  /** `s` is what `sorted(range(n), key=lambda i: (x_i, y_i))` returns for
      the first `n` points: a permutation of 0..n-1, ordered by key, with
      equal keys kept in index order. */
  ghost predicate IsStableSortOf(pts: seq<Point>, n: nat, s: seq<nat>) {
    && n <= |pts|
    && |s| == n
    && (forall m: nat :: m in s <==> m < n)
    && InRange(pts, s)
    && SortedBefore(pts, s)
  }

  /** The tail of a sorted sequence is sorted. */
  lemma SortedTail(pts: seq<Point>, s: seq<nat>)
    requires s != [] && InRange(pts, s) && SortedBefore(pts, s)
    ensures InRange(pts, s[1..]) && SortedBefore(pts, s[1..])
  {
    forall a, b | 0 <= a < b < |s[1..]| ensures Before(pts, s[1..][a], s[1..][b]) {
      assert s[1..][a] == s[a + 1] && s[1..][b] == s[b + 1];
    }
  }

  /** An element before every element of a sorted sequence can lead it. */
  lemma SortedCons(pts: seq<Point>, k: nat, s: seq<nat>)
    requires k < |pts| && InRange(pts, s) && SortedBefore(pts, s)
    requires forall b :: 0 <= b < |s| ==> Before(pts, k, s[b])
    ensures InRange(pts, [k] + s) && SortedBefore(pts, [k] + s)
  {
    var r := [k] + s;
    forall a, b | 0 <= a < b < |r| ensures Before(pts, r[a], r[b]) {
      assert r[b] == s[b - 1];
      if a > 0 {
        assert r[a] == s[a - 1];
      }
    }
  }

  /** Inserts index `k` into the sorted sequence `s`. */
  function Insert(pts: seq<Point>, k: nat, s: seq<nat>): (r: seq<nat>)
    requires k < |pts| && InRange(pts, s) && SortedBefore(pts, s) && k !in s
    ensures |r| == |s| + 1
    ensures forall m :: m in r <==> m == k || m in s
    ensures InRange(pts, r) && SortedBefore(pts, r)
    decreases |s|
  {
    if s == [] then [k]
    else if Before(pts, k, s[0]) then
      assert forall b :: 0 <= b < |s| ==> Before(pts, k, s[b]) by {
        forall b | 0 <= b < |s| ensures Before(pts, k, s[b]) {
          if b > 0 { BeforeTransitive(pts, k, s[0], s[b]); }
        }
      }
      SortedCons(pts, k, s);
      [k] + s
    else
      BeforeTotal(pts, k, s[0]);
      SortedTail(pts, s);
      var tail := Insert(pts, k, s[1..]);
      assert forall b :: 0 <= b < |tail| ==> Before(pts, s[0], tail[b]) by {
        forall b | 0 <= b < |tail| ensures Before(pts, s[0], tail[b]) {
          assert tail[b] in tail;
          if tail[b] != k {
            var c :| 0 <= c < |s[1..]| && s[1..][c] == tail[b];
            assert s[c + 1] == tail[b];
          }
        }
      }
      SortedCons(pts, s[0], tail);
      [s[0]] + tail
  }

  /** The indices 0..n-1 stably sorted by (x, y), by insertion. */
  function SortIndices(pts: seq<Point>, n: nat): (s: seq<nat>)
    requires n <= |pts|
    ensures IsStableSortOf(pts, n, s)
  {
    if n == 0 then []
    else Insert(pts, n - 1, SortIndices(pts, n - 1))
  }

  /** Two stably sorted index lists agree: the specification determines the
      order completely, so the sort is deterministic. */
  lemma {:induction false} StableSortIsUnique(pts: seq<Point>, s: seq<nat>, t: seq<nat>)
    requires InRange(pts, s) && InRange(pts, t)
    requires SortedBefore(pts, s) && SortedBefore(pts, t)
    requires |s| == |t| && forall m :: m in s <==> m in t
    ensures s == t
    decreases |s|
  {
    if s != [] {
      assert t[0] in s;
      var a :| 0 <= a < |s| && s[a] == t[0];
      assert s[0] in t;
      var b :| 0 <= b < |t| && t[b] == s[0];
      assert s[0] == t[0];
      assert forall m :: m in s[1..] <==> m in t[1..] by {
        forall m ensures m in s[1..] <==> m in t[1..] {
          if m in s[1..] {
            var c :| 1 <= c < |s| && s[c] == m;
            assert Before(pts, s[0], m);
            assert m in t && m != t[0];
            var d :| 0 <= d < |t| && t[d] == m;
            assert t[1..][d - 1] == m;
          }
          if m in t[1..] {
            var c :| 1 <= c < |t| && t[c] == m;
            assert Before(pts, t[0], m);
            assert m in s && m != s[0];
            var d :| 0 <= d < |s| && s[d] == m;
            assert s[1..][d - 1] == m;
          }
        }
      }
      assert SortedBefore(pts, s[1..]) by {
        forall x, y | 0 <= x < y < |s[1..]| ensures Before(pts, s[1..][x], s[1..][y]) {
          assert s[1..][x] == s[x + 1] && s[1..][y] == s[y + 1];
        }
      }
      assert SortedBefore(pts, t[1..]) by {
        forall x, y | 0 <= x < y < |t[1..]| ensures Before(pts, t[1..][x], t[1..][y]) {
          assert t[1..][x] == t[x + 1] && t[1..][y] == t[y + 1];
        }
      }
      StableSortIsUnique(pts, s[1..], t[1..]);
      assert s == [s[0]] + s[1..] && t == [t[0]] + t[1..];
    }
  }

  // --------------------------------------------------------------------- fan

  /** The fan around `s[0]`: (s[0], s[i], s[i + 1]) for i = 1 .. |s| - 2. */
  function Fan(s: seq<nat>): (r: seq<Triangle>)
    requires |s| >= 2
    ensures |r| == |s| - 2
  {
    seq(|s| - 2, i requires 0 <= i < |s| - 2 => Triangle(s[0], s[i + 1], s[i + 2]))
  }

  /** Index `k` is a vertex of some triangle of `r`. */
  predicate Covers(r: seq<Triangle>, k: int) {
    exists i :: 0 <= i < |r| && k in r[i].Indices()
  }

  /** A sorted index list holds no index twice. */
  lemma SortedIsDistinct(pts: seq<Point>, s: seq<nat>)
    requires InRange(pts, s) && SortedBefore(pts, s)
    ensures forall a, b :: 0 <= a < b < |s| ==> s[a] != s[b]
  {
    forall a, b | 0 <= a < b < |s| ensures s[a] != s[b] {
      assert Before(pts, s[a], s[b]);
    }
  }

  /** The fan over a permutation of 0..n-1 (n >= 3) has well-formed
      triangles that all share the first vertex, chain edge to edge, and
      together use every index. */
  lemma FanShape(s: seq<nat>, n: nat)
    requires n >= 3 && |s| == n
    requires forall m: nat :: m in s <==> m < n
    requires forall a, b :: 0 <= a < b < |s| ==> s[a] != s[b]
    ensures forall i :: 0 <= i < n - 2 ==> Fan(s)[i].WellFormedFor(n)
    ensures forall i :: 0 <= i < n - 3 ==> Fan(s)[i].a == Fan(s)[i + 1].a && Fan(s)[i].c == Fan(s)[i + 1].b
    ensures forall k :: 0 <= k < n ==> Covers(Fan(s), k)
  {
    var r := Fan(s);
    forall i | 0 <= i < n - 2 ensures r[i].WellFormedFor(n) {
      assert r[i] == Triangle(s[0], s[i + 1], s[i + 2]);
      assert s[0] in s && s[i + 1] in s && s[i + 2] in s;
    }
    forall k | 0 <= k < n ensures Covers(r, k) {
      assert k in s;
      var j :| 0 <= j < n && s[j] == k;
      if j == 0 {
        assert k in r[0].Indices();
      } else if j < n - 1 {
        assert k in r[j - 1].Indices();
      } else {
        assert k in r[n - 3].Indices();
      }
    }
  }

  /** `triangulation`: for exactly 3 points the single triangle (0, 1, 2),
      whatever the coordinates; otherwise the fan over the indices stably
      sorted by (x, y). An empty list makes `triangulate` fail on
      `sorted_indices[0]`, hence the precondition. */
  function Triangulation(pts: seq<Point>): (r: seq<Triangle>)
    requires |pts| > 0
    ensures |pts| == 3 ==> r == [Triangle(0, 1, 2)]
    ensures |pts| < 3 ==> r == []
    ensures |pts| >= 3 ==> |r| == |pts| - 2
    ensures forall i :: 0 <= i < |r| ==> r[i].WellFormedFor(|pts|)
    ensures forall i :: 0 <= i < |r| - 1 ==> r[i].a == r[i + 1].a && r[i].c == r[i + 1].b
    ensures |pts| >= 3 ==> forall k :: 0 <= k < |pts| ==> Covers(r, k)
  {
    var n := |pts|;
    if n == 3 then
      var r := [Triangle(0, 1, 2)];
      assert 0 in r[0].Indices() && 1 in r[0].Indices() && 2 in r[0].Indices();
      r
    else
      var s := SortIndices(pts, n);
      if n < 3 then []
      else
        SortedIsDistinct(pts, s);
        FanShape(s, n);
        Fan(s)
  }

  /** For more than 3 points, triangle i is (s[0], s[i + 1], s[i + 2]) for
      the stable (x, y) order s of the indices. */
  lemma FanFollowsStableSort(pts: seq<Point>, s: seq<nat>)
    requires |pts| > 3
    requires IsStableSortOf(pts, |pts|, s)
    ensures forall i :: 0 <= i < |pts| - 2 ==> Triangulation(pts)[i] == Triangle(s[0], s[i + 1], s[i + 2])
  {
    var t := SortIndices(pts, |pts|);
    StableSortIsUnique(pts, s, t);
  }

  /** For more than 3 points every triangle shares its first vertex, the
      point with the smallest (x, y). */
  lemma FanAnchorIsSmallest(pts: seq<Point>)
    requires |pts| > 3
    ensures forall i, j :: 0 <= i < |pts| - 2 && 0 <= j < |pts| ==> !KeyLess(pts[j], pts[Triangulation(pts)[i].a])
  {
    var s := SortIndices(pts, |pts|);
    FanFollowsStableSort(pts, s);
    assert forall i :: 0 <= i < |pts| - 2 ==> Triangulation(pts)[i].a == s[0];
    forall j | 0 <= j < |pts| ensures !KeyLess(pts[j], pts[s[0]]) {
      assert j in s;
      var b :| 0 <= b < |s| && s[b] == j;
      if b > 0 {
        assert Before(pts, s[0], s[b]);
      }
    }
  }

  // ------------------------------------------------------------- triangulate

  /** `triangulate`: the validation chain, then an empty result for
      collinear points (a success, not an error), otherwise the fan. */
  function Triangulate(input: PointsValue): (r: Result<seq<Triangle>, Failure>)
    ensures r.Ok? <==> IsValidInput(input)
    ensures r.Err? ==> Validate(input) == Err(r.error)
    ensures r.Ok? ==> var pts := Validate(input).value;
      && (r.value == [] <==> AreCollinear(pts))
      && (!AreCollinear(pts) ==> |r.value| == |pts| - 2)
      && (!AreCollinear(pts) ==> r.value == Triangulation(pts))
      && (!AreCollinear(pts) && |pts| == 3 ==> r.value == [Triangle(0, 1, 2)])
      && forall i :: 0 <= i < |r.value| ==> r.value[i].WellFormedFor(|pts|)
  {
    ValidateAcceptsExactlyValidInputs(input);
    match Validate(input)
    case Err(f) => Err(f)
    case Ok(pts) => if AreCollinear(pts) then Ok([]) else Ok(Triangulation(pts))
  }
}

=== FILE: validation.dfy ===
/** The checks both versions of `triangulate` run before any geometry, in
    this order, stopping at the first violation: the argument is a list;
    it is not empty; it has at least 3 elements; then, point by point in
    index order, each element is a 2-element tuple or list, both
    coordinates are numbers, neither is NaN, neither is infinite. */
module Validation {
  import opened Outcomes
  import opened Values

  /** Why `triangulate` raised. */
  datatype Failure =
    | NotAList                        // TypeError: "Points must be a list"
    | EmptyPointSet                   // ValueError: "PointSet is empty"
    | InsufficientPoints              // ValueError: "Insufficient points for triangulation"
    | InvalidPointFormat(index: nat)  // ValueError naming the offending index
    | NonNumericCoordinate            // TypeError: "Point coordinates must be numeric"
    | NaNCoordinate                   // ValueError: "NaN detected in coordinates"
    | InfiniteCoordinate              // ValueError: "Infinity detected in coordinates"
    | DuplicatePoints                 // ValueError: "Duplicate points detected"

  /** The exception class raised for each failure. */
  function ExceptionOf(f: Failure): (x: Exception)
    ensures x == TypeError <==> f.NotAList? || f.NonNumericCoordinate?
    ensures x != TypeError ==> x == ValueError
  {
    if f.NotAList? || f.NonNumericCoordinate? then TypeError else ValueError
  }

  predicate IsInfinite(n: Num) {
    n.PosInf? || n.NegInf?
  }

  /** An element that passes every per-point check: a pair of finite numbers. */
  predicate IsFinitePair(v: PointValue) {
    v.Pair? && v.x.Number? && v.y.Number? && v.x.n.Finite? && v.y.n.Finite?
  }

  function PointOf(v: PointValue): Point
    requires IsFinitePair(v)
  {
    Point(v.x.n.r, v.y.n.r)
  }

  /** The per-point checks of element `i`. A NaN in either coordinate is
      reported before an infinity in either coordinate. */
  function CheckPoint(v: PointValue, i: nat): (r: Result<Point, Failure>)
    ensures r.Ok? <==> IsFinitePair(v)
    ensures r.Ok? ==> r.value == PointOf(v)
    ensures r == Err(InvalidPointFormat(i)) <==> v.Malformed?
    ensures r == Err(NonNumericCoordinate) <==> v.Pair? && !(v.x.Number? && v.y.Number?)
    ensures r == Err(NaNCoordinate) <==>
      v.Pair? && v.x.Number? && v.y.Number? && (v.x.n.NaN? || v.y.n.NaN?)
    ensures r == Err(InfiniteCoordinate) <==>
      v.Pair? && v.x.Number? && v.y.Number? && !v.x.n.NaN? && !v.y.n.NaN?
      && (IsInfinite(v.x.n) || IsInfinite(v.y.n))
  {
    match v
    case Malformed => Err(InvalidPointFormat(i))
    case Pair(x, y) =>
      if !x.Number? || !y.Number? then Err(NonNumericCoordinate)
      else if x.n.NaN? || y.n.NaN? then Err(NaNCoordinate)
      else if IsInfinite(x.n) || IsInfinite(y.n) then Err(InfiniteCoordinate)
      else Ok(Point(x.n.r, y.n.r))
  }

  /** The per-point loop from index `i` on: the validated points, or the
      failure of the first element (in index order) that does not pass. */
  function CheckPointsFrom(items: seq<PointValue>, i: nat): (r: Result<seq<Point>, Failure>)
    requires i <= |items|
    ensures r.Ok? <==> forall j :: i <= j < |items| ==> IsFinitePair(items[j])
    ensures r.Ok? ==> |r.value| == |items| - i
    ensures r.Ok? ==> forall j :: i <= j < |items| ==> r.value[j - i] == PointOf(items[j])
    ensures r.Err? ==>
      (exists k :: i <= k < |items| && CheckPoint(items[k], k) == Err(r.error)
         && forall j :: i <= j < k ==> IsFinitePair(items[j]))
    decreases |items| - i
  {
    if i == |items| then Ok([])
    else
      match CheckPoint(items[i], i)
      case Err(f) => Err(f)
      case Ok(p) =>
        match CheckPointsFrom(items, i + 1)
        case Err(f) => Err(f)
        case Ok(rest) => Ok([p] + rest)
  }

  /** Steps 1 to 5 of the validation, shared by both `triangulate`
      functions: the list-level checks come before any per-point check. */
  function CheckPoints(input: PointsValue): (r: Result<seq<Point>, Failure>)
    ensures r == Err(NotAList) <==> input.NotList?
    ensures r == Err(EmptyPointSet) <==> input.List? && |input.items| == 0
    ensures r == Err(InsufficientPoints) <==> input.List? && 1 <= |input.items| < 3
    ensures r.Ok? <==>
      (input.List? && |input.items| >= 3
       && forall j :: 0 <= j < |input.items| ==> IsFinitePair(input.items[j]))
    ensures r.Ok? ==> |r.value| == |input.items|
    ensures r.Ok? ==> forall j :: 0 <= j < |input.items| ==> r.value[j] == PointOf(input.items[j])
    ensures r.Err? && input.List? && |input.items| >= 3 ==>
      (exists k :: 0 <= k < |input.items| && CheckPoint(input.items[k], k) == Err(r.error)
         && forall j :: 0 <= j < k ==> IsFinitePair(input.items[j]))
  {
    match input
    case NotList => Err(NotAList)
    case List(items) =>
      if |items| == 0 then Err(EmptyPointSet)
      else if |items| < 3 then Err(InsufficientPoints)
      else
        var r := CheckPointsFrom(items, 0);
        assert r.Err? ==>
          (r.error.InvalidPointFormat? || r.error.NonNumericCoordinate?
           || r.error.NaNCoordinate? || r.error.InfiniteCoordinate?);
        r
  }
}

=== FILE: values.dfy ===
/** The values the service, the codec and the triangulator pass between them.

    `triangulate` accepts an arbitrary Python object, so its input is
    modelled by shape: a list or not, each element a 2-element tuple/list
    or not, each coordinate an `int`/`float` or not, and each number
    finite, NaN or an infinity. Finite numbers are reals: the model does
    not follow floating-point rounding. */
module Values {

  /** A Python `int` or `float`. */
  datatype Num = Finite(r: real) | NaN | PosInf | NegInf

  /** A coordinate: a number, or an object of any other type. */
  datatype Coord = Number(n: Num) | NotNumber

  /** One element of the point list: a 2-element tuple or list,
      or anything else (a 1-tuple, a bare number, a string, ...). */
  datatype PointValue = Pair(x: Coord, y: Coord) | Malformed

  /** The argument of `triangulate`: a list, or any other object. */
  datatype PointsValue = List(items: seq<PointValue>) | NotList

  /** A validated point: two finite coordinates. */
  datatype Point = Point(x: real, y: real)

  /** A triangle as the triangulator builds it and the decoder returns it:
      three indices into the point list. */
  datatype Triangle = Triangle(a: int, b: int, c: int) {

    /** The triangle as the sequence of its three indices, in order. */
    function Indices(): seq<int> {
      [a, b, c]
    }

    /** Three pairwise-distinct indices, each in [0, n). */
    predicate WellFormedFor(n: int) {
      && 0 <= a < n && 0 <= b < n && 0 <= c < n
      && a != b && b != c && a != c
    }
  }

  /** The index sequences of a list of triangles, as handed to the encoder. */
  function IndexLists(ts: seq<Triangle>): (r: seq<seq<int>>)
    ensures |r| == |ts|
    ensures forall i :: 0 <= i < |ts| ==> r[i] == ts[i].Indices()
  {
    seq(|ts|, i requires 0 <= i < |ts| => ts[i].Indices())
  }

  /** Python's `s.startswith(prefix)`. */
  predicate StartsWith(s: string, prefix: string) {
    |prefix| <= |s| && s[..|prefix|] == prefix
  }
}
